=== FILE: README.md ===
# Authentication back ends, modelled in Dafny

This project models the authentication core of a small events system. The system has two back ends.

* The **Spring** back end (`modulo1`) has three parts:
  * a `User` entity;
  * a `JwtService` that signs HS512 JSON Web Tokens whose subject is the user's e-mail and which carry a `name` claim;
  * an `AuthController` with `register`, `login` and `validateToken` over a user repository keyed by e-mail.
* The **Laravel** back end has an `AuthController` and a `JWTMiddleware`. The controller handles `register`, `login`, `validateToken` and the password-reset pair `forgotPassword`/`resetPassword`. All but `validateToken` check their input with declarative validation rules; `validateToken` reads the bearer token directly. The middleware gates protected routes on an HS256 bearer token.

Each operation is a pure function. It takes the store and a request and returns the new store and a response datatype that carries the HTTP status. Every collaborator that the source calls into a library for is a parameter of the model, and the properties the code relies on are stated as predicates over it:

* bcrypt `encode`/`matches` (`Hash::make`/`Hash::check`) is `Crypto.Hasher`. `Crypto.Sound` says `matches(p, encode(p, salt))`. bcrypt reads only the first 72 bytes of a password. For ASCII passwords without NUL, bytes and characters coincide. `Crypto.Discriminating` says that no digest matches such a password differing from its plaintext within the first 72 characters. `Crypto.Truncating` says that a digest matches every such password that agrees with its plaintext there.
* The JWT library's JSON/base64url encodings and the HMAC form a `Jws.Codec`. `Jws.Lawful` says that decoding inverts encoding and that every encoded part is non-empty base64url text.
* The random bcrypt salt, `Str::random(60)` and `now()` are arguments.
* The Laravel `email` format rule is the predicate `isEmail`.
* The token issuance and decoding done inside `JWTAuth` are the functions `issue` and `subjectOf`.

Modules:

| file | module | models |
|---|---|---|
| wrappers.dfy | `Wrappers` | `Option`, `Result` in place of null and exceptions |
| crypto.dfy | `Crypto` | the password hasher |
| text.dfy | `Text` | Java `String.replace` and whitespace trimming, PHP `strrpos`, `strstr`, `trim` |
| jws.dfy | `Jws` | JWS compact serialization (section 7.1 of RFC 7515) with the HMAC algorithms of section 3.2 of RFC 7518 |
| user.dfy | `UserEntity` | `User.java` |
| jwt_service.dfy | `JwtService` | `JwtService.java` |
| spring_auth.dfy | `SpringAuthController` | the Spring `AuthController.java` |
| laravel_validation.dfy | `LaravelValidation`, `LaravelRequest` | the validator rules used here; `Request::bearerToken()` |
| laravel_auth.dfy | `LaravelAuthController` | `AuthController.php` |
| jwt_middleware.dfy | `JwtMiddleware` | `JWTMiddleware.php` |

## Model

| member | source | states |
|---|---|---|
| UserEntity.SetId | modulo1/src/main/java/com/eventos/modulo1/model/User.java:20-22 | `setId` then `getId` returns the new id; name, e-mail and password are unchanged |
| UserEntity.SetName | modulo1/src/main/java/com/eventos/modulo1/model/User.java:26-28 | `setName` then `getName` returns the new name; the other three fields are unchanged |
| UserEntity.SetEmail | modulo1/src/main/java/com/eventos/modulo1/model/User.java:32-34 | `setEmail` then `getEmail` returns the new e-mail; the other three fields are unchanged |
| UserEntity.SetPassword | modulo1/src/main/java/com/eventos/modulo1/model/User.java:38-40 | the password field holds whatever was last set; the other three fields are unchanged |
| UserEntity.SettersIdempotent | modulo1/src/main/java/com/eventos/modulo1/model/User.java:20-40 | setting a field to its current value is a no-op, and of two sets of one field the last wins |
| Text.RemoveAll | modulo1/src/main/java/com/eventos/modulo1/controller/AuthController.java:53 | `replace("Bearer ", "")` never lengthens the header and leaves a header without "Bearer " as it is |
| Text.RemoveAllLeading | modulo1/src/main/java/com/eventos/modulo1/controller/AuthController.java:53 | a leading "Bearer " is removed |
| Text.RemoveAllInside | modulo1/src/main/java/com/eventos/modulo1/controller/AuthController.java:53 | an occurrence after an occurrence-free prefix is removed too: removal is not limited to the front |
| Text.InsertedAtRemoved | modulo1/src/main/java/com/eventos/modulo1/controller/AuthController.java:53 | a string that lacks the pattern's final character gets back to itself once the pattern, inserted at any position, is removed |
| Text.Strip | modulo1/src/main/java/com/eventos/modulo1/service/JwtService.java:27 | the whitespace trimming the JWT library applies to a segment: the result is the segment with only whitespace (Java's `Character.isWhitespace`) around it, and neither starts nor ends with whitespace |
| Text.StripPadded | modulo1/src/main/java/com/eventos/modulo1/service/JwtService.java:27 | whitespace in front of a segment makes no difference to the trimmed result |
| Text.LastIndexOf | app/Http/MiddleWare/JWTMiddleware.php:24 | `strrpos`: the index found is an occurrence and no occurrence lies after it; `false` exactly when there is no occurrence |
| Text.BeforeComma | app/Http/MiddleWare/JWTMiddleware.php:24 | the bearer token is the longest comma-free prefix of what follows the scheme |
| Jws.SplitJoin | modulo1/src/main/java/com/eventos/modulo1/service/JwtService.java:21-27 | splitting the compact serialization of period-free parts gives the parts back |
| Jws.JoinSplit | modulo1/src/main/java/com/eventos/modulo1/service/JwtService.java:24-27 | any string is the period-join of its parts, so a parsed token is exactly its three parts |
| Jws.ParseCompact | modulo1/src/main/java/com/eventos/modulo1/service/JwtService.java:24-27 | a token parses only with exactly three period-free parts, and is then their serialization |
| Jws.VerifySign | modulo1/src/main/java/com/eventos/modulo1/service/JwtService.java:16-29 | verifying a token signed under the same key with an admitted algorithm returns exactly the signed claims |
| Jws.Sign | modulo1/src/main/java/com/eventos/modulo1/service/JwtService.java:16-21 | for a lawful codec the token parses into three parts whose header decodes to the signing algorithm, whose payload decodes to the claims, and whose signature is the MAC of the signing input under the key |
| Jws.Verify | modulo1/src/main/java/com/eventos/modulo1/service/JwtService.java:24-29 | a token is accepted iff it is well signed: three parts, decodable header and claims, an algorithm the policy admits, and a signature equal to the MAC of the signing input under the key; the claims returned are the decoded payload; a token that does not split into three parts is `Malformed` |
| Jws.VerifyParts | modulo1/src/main/java/com/eventos/modulo1/service/JwtService.java:24-29 | the three parts read from a token are accepted iff the header decodes to an algorithm the policy admits, the payload decodes, and the signature is the MAC of the first two parts under the key; the claims returned are the decoded payload |
| Jws.SignatureTamperRejected | modulo1/src/main/java/com/eventos/modulo1/service/JwtService.java:24-29 | changing the signature part of an accepted token makes it rejected |
| Jws.WrongKeyRejected | modulo1/src/main/java/com/eventos/modulo1/service/JwtService.java:16-29 | a token is rejected under a key whose MAC over the signing input differs from the signer's |
| JwtService.GenerateToken | modulo1/src/main/java/com/eventos/modulo1/service/JwtService.java:16-22 | a generated token's header names HS512, its `sub` is the user's e-mail and its `name` claim is the user's name; round trip: validating it under the same secret gives back exactly those claims |
| JwtService.TokenDependsOnEmailAndName | modulo1/src/main/java/com/eventos/modulo1/service/JwtService.java:16-21 | users with the same e-mail and name get the same token: no id, password or time enters it, so it never expires |
| JwtService.Segments | modulo1/src/main/java/com/eventos/modulo1/service/JwtService.java:27 | how the parser reads a token: exactly two periods; header and payload are the token's segments with surrounding whitespace trimmed, and must not be empty; the signature is its segment as it is, and must not be empty |
| JwtService.SegmentsOfPadded | modulo1/src/main/java/com/eventos/modulo1/service/JwtService.java:27 | whitespace in front of a token of non-empty base64url parts is ignored: the segments read are the parts |
| JwtService.ValidateToken | modulo1/src/main/java/com/eventos/modulo1/service/JwtService.java:24-29 | validation succeeds iff the segments are read and are well signed under the service's secret with an HMAC algorithm, and then the signature is the MAC of the trimmed header and payload and the claims are the decoded payload |
| JwtService.PaddedTokenAccepted | modulo1/src/main/java/com/eventos/modulo1/service/JwtService.java:16-29 | a generated token with whitespace in front still validates to the issued claims |
| JwtService.OtherSecretRejected | modulo1/src/main/java/com/eventos/modulo1/service/JwtService.java:13-29 | signing and validation read the same secret: a token from a service with a different secret is rejected |
| SpringAuthController.Persist | modulo1/src/main/java/com/eventos/modulo1/model/User.java:15-19 | saving a new entity assigns the next generated id, adds exactly that record and keeps the others |
| SpringAuthController.Register | modulo1/src/main/java/com/eventos/modulo1/controller/AuthController.java:29-37 | a known e-mail gives 400 and leaves the store unchanged; a fresh one adds exactly one record whose password is `encode(plaintext)`; no other record changes; one record per e-mail and distinct ids are preserved |
| SpringAuthController.SaveAsWritten | modulo1/src/main/java/com/eventos/modulo1/controller/AuthController.java:35 | Spring Data `save` as used here: an entity without an id, or with an id no record holds, is inserted with a fresh id; an entity with a stored id replaces that record, which is moved to the new e-mail, keeps the id counter and leaves every other record as it was |
| SpringAuthController.RegisterAsWritten | modulo1/src/main/java/com/eventos/modulo1/controller/AuthController.java:29-37 | `register` as written: a known e-mail gives 400 with the store unchanged; otherwise the e-mail is stored with the name given and the password's digest; when the body's `id` names another user's record, the stored record carries that id and the other user's e-mail is gone |
| SpringAuthController.RegisterAgreesWithoutId | modulo1/src/main/java/com/eventos/modulo1/controller/AuthController.java:34-35 | a body without an `id`, which is what the registration form sends, is handled by the code as written exactly as by the corrected `Register` |
| SpringAuthController.RegisterOverwritesExistingRecord | modulo1/src/main/java/com/eventos/modulo1/controller/AuthController.java:34-35 | a registration that names an existing user's id replaces that user's record (see Findings) |
| SpringAuthController.Login | modulo1/src/main/java/com/eventos/modulo1/controller/AuthController.java:39-48 | login succeeds iff the e-mail is stored and the password matches its digest, and then returns the token generated for the stored user |
| SpringAuthController.ValidateToken | modulo1/src/main/java/com/eventos/modulo1/controller/AuthController.java:50-63 | `isValid: true` comes only with the subject and name of claims that validated after every "Bearer " was removed; every failure is `isValid: false` |
| SpringAuthController.LoginFailuresIndistinguishable | modulo1/src/main/java/com/eventos/modulo1/controller/AuthController.java:41-45 | an unknown e-mail and a known e-mail with a wrong password give the identical 401 "Invalid credentials" |
| SpringAuthController.RegisterThenLogin | modulo1/src/main/java/com/eventos/modulo1/controller/AuthController.java:34-47 | with a sound hasher, register then login with the same credentials succeeds, and the token validates to the registered e-mail and name |
| SpringAuthController.RegisterThenWrongPassword | modulo1/src/main/java/com/eventos/modulo1/controller/AuthController.java:34-45 | with a discriminating hasher, a plain password that differs from the registered one within the first 72 characters is refused after registration |
| SpringAuthController.LongPasswordExtensionAccepted | modulo1/src/main/java/com/eventos/modulo1/controller/AuthController.java:34-47 | with bcrypt's truncation, after registering a plain password of 72 characters or more, any plain extension of it logs in |
| SpringAuthController.RegisterTwice | modulo1/src/main/java/com/eventos/modulo1/controller/AuthController.java:31-35 | a second registration of the same e-mail is refused and the store keeps the first one's single record |
| SpringAuthController.BearerHeaderAccepted | modulo1/src/main/java/com/eventos/modulo1/controller/AuthController.java:53-54 | a generated token validates with the "Bearer " scheme and also without it, which is looser than section 2.1 of RFC 6750 |
| SpringAuthController.BearerDeletedAnywhere | modulo1/src/main/java/com/eventos/modulo1/controller/AuthController.java:53 | a generated token with "Bearer " inserted at any position still validates |
| SpringAuthController.ExtraSpaceAccepted | modulo1/src/main/java/com/eventos/modulo1/controller/AuthController.java:53-54 | a header "Bearer" followed by two spaces and a generated token validates: `replace` leaves one space, which the JWT parser trims |
| SpringAuthController.BearerRepeated | modulo1/src/main/java/com/eventos/modulo1/controller/AuthController.java:53 | a doubled "Bearer Bearer " scheme still validates |
| SpringAuthController.SameStrippedSameResponse | modulo1/src/main/java/com/eventos/modulo1/controller/AuthController.java:53-54 | the response depends on the header only through the header with "Bearer " removed |
| SpringAuthController.ValidImpliesSigned | modulo1/src/main/java/com/eventos/modulo1/controller/AuthController.java:52-59 | `isValid: true` is given only for a token signed under the service's secret |
| SpringAuthController.AnaScenario | modulo1/src/main/java/com/eventos/modulo1/controller/AuthController.java:29-63 | Ana registers, logs in and validates her token to her e-mail and name; a wrong password is refused; the same e-mail cannot register again |
| SpringAuthController.Handle | modulo1/src/main/java/com/eventos/modulo1/controller/AuthController.java:29-63 | only `register` can change the store (`login` and `validateToken` never do), and every request keeps the store well formed |
| LaravelValidation.Failures | app/Http/Controllers/AuthController.php:29-39 | the attributes reported are among those with rules, and none is reported iff every rule that runs on its attribute's value accepts it (`fails()` is false) |
| LaravelValidation.RequiredPresent | app/Http/Controllers/AuthController.php:29-32 | an attribute under `required` passes only when it is present and not blank |
| LaravelRequest.BearerToken | app/Http/Controllers/AuthController.php:125 | a token is found iff the header contains "Bearer ", and it never contains a comma |
| LaravelRequest.BearerTokenOfScheme | app/Http/MiddleWare/JWTMiddleware.php:24 | the header "Bearer " followed by a space- and comma-free token yields exactly that token |
| LaravelAuthController.First | app/Http/Controllers/AuthController.php:273-276 | `where(...)->first()` is a matching row with no matching row before it, and null exactly when no row matches |
| LaravelAuthController.FirstByEmail | app/Http/Controllers/AuthController.php:232 | in a well-formed table the first row with an e-mail is the only one |
| LaravelAuthController.Register | app/Http/Controllers/AuthController.php:27-69 | a rejected request changes nothing; an accepted one appends one row with the next id, the hashed password, `user_type` defaulting to `student` and no reset token, for an e-mail not yet used; the table stays well formed |
| LaravelAuthController.RegisterAcceptsIff | app/Http/Controllers/AuthController.php:29-45 | `register` answers 422 and creates nothing iff any of these fails: name present and at most 255; e-mail present, well formed, at most 255 and unused; password at least 6 and confirmed; phone, course and registration number within 20, 100 and 50; user type in student, teacher, admin |
| LaravelAuthController.NameRule | app/Http/Controllers/AuthController.php:30 | the `name` rules fail iff the name is absent, blank or longer than 255 |
| LaravelAuthController.EmailRule | app/Http/Controllers/AuthController.php:31 | the `email` rules fail iff the e-mail is absent, blank, malformed, longer than 255 or already in `users` |
| LaravelAuthController.PasswordRule | app/Http/Controllers/AuthController.php:32 | the `password` rules fail iff the password is absent, blank, shorter than 6 or not equal to `password_confirmation` |
| LaravelAuthController.LengthRule | app/Http/Controllers/AuthController.php:33-35 | a nullable field with a length limit fails iff it is given, not blank and too long |
| LaravelAuthController.UserTypeRule | app/Http/Controllers/AuthController.php:36 | the `user_type` rule fails iff a non-blank type outside student, teacher and admin is given |
| LaravelAuthController.RegisteredUserType | app/Http/Controllers/AuthController.php:54 | the stored type is `student` when none is given, and otherwise one of the three roles (or a blank value, which skips the `in` rule) |
| LaravelAuthController.Authenticate | app/Http/Controllers/AuthController.php:92 | a credential check succeeds iff the first row with the e-mail has a digest that matches the password, and then it names that row |
| LaravelAuthController.Login | app/Http/Controllers/AuthController.php:74-117 | 422 iff the input fails the rules; for valid input, 401 iff the credential check fails, 500 iff it succeeds but no token is issued, and 200 iff a token is issued; a success returns the stored row with the given e-mail, a matching password and the token issued for it |
| LaravelAuthController.LoginFailuresIndistinguishable | app/Http/Controllers/AuthController.php:92-96 | whenever no row with the e-mail matches the password, whether or not the e-mail exists, the answer is the same 401 |
| LaravelAuthController.RegisterThenLogin | app/Http/Controllers/AuthController.php:47-55 | with a sound hasher, a newly registered user logs in with the registered e-mail and password |
| LaravelAuthController.ValidateToken | app/Http/Controllers/AuthController.php:122-158 | "token not provided" iff there is no truthy bearer token; `isValid: true` comes only with the id, e-mail, name and type of a stored row that the token's subject names |
| LaravelAuthController.ValidateTokenResolves | app/Http/Controllers/AuthController.php:125-150 | a bearer token whose subject is a stored user's id is answered with that user's fields |
| LaravelAuthController.ForgotPassword | app/Http/Controllers/AuthController.php:218-238 | 422 with no change iff the e-mail is absent, malformed or unknown; otherwise the user's row alone gets the 60-character token and expiry `now + 3600` |
| LaravelAuthController.ForgotRule | app/Http/Controllers/AuthController.php:220-222 | `forgotPassword` validation passes iff the e-mail is present, well formed and in `users` |
| LaravelAuthController.ResetPassword | app/Http/Controllers/AuthController.php:257-289 | 422 iff the input fails the rules; for valid input, success iff some row has the e-mail, an equal reset token and an expiry after now; that row gets the new password's digest and both reset fields cleared; a refusal (400) or invalid input (422) changes nothing |
| LaravelAuthController.ResetRequestValid | app/Http/Controllers/AuthController.php:259-263 | an e-mail, a token and a confirmed password of at least 6 characters pass the `resetPassword` rules |
| LaravelAuthController.ForgotThenReset | app/Http/Controllers/AuthController.php:232-289 | round trip: the token `forgotPassword` stored, presented within the hour, changes the password |
| LaravelAuthController.ResetAfterExpiryRefused | app/Http/Controllers/AuthController.php:273-283 | after the hour has passed, the token is refused and nothing changes |
| LaravelAuthController.ResetTokenSingleUse | app/Http/Controllers/AuthController.php:285-289 | replaying a successful reset is refused and changes nothing: a reset token cannot be reused |
| LaravelAuthController.ResetThenLogin | app/Http/Controllers/AuthController.php:285-289 | with a sound hasher, the new password authenticates after a reset |
| JwtMiddleware.Gate | app/Http/MiddleWare/JWTMiddleware.php:21-57 | "token not provided" iff there is no truthy bearer token; a token that fails HS256 verification, has expired (`exp <= now`) or has no `user_id` is "token invalid or expired"; a valid one whose `user_id` is `null` or names no row is "user not found"; forwarding happens iff the token verifies, has not expired and its `user_id` names a stored row, which is the user forwarded |
| JwtMiddleware.Handle | app/Http/MiddleWare/JWTMiddleware.php:21-57 | at a given time, a rejection answers 401 with the gate's message; otherwise the response is `next` applied once to the request carrying the resolved user |
| JwtMiddleware.RejectionIgnoresNext | app/Http/MiddleWare/JWTMiddleware.php:24-42 | on every rejection the response is 401 and does not depend on `next`, so `next` is not called |
| JwtMiddleware.SignedTokenForwarded | app/Http/MiddleWare/JWTMiddleware.php:33-48 | a token signed with HS256 under the secret, not expired, whose `user_id` names a stored user is forwarded with that user |
| JwtMiddleware.NullUserIdUnknown | app/Http/MiddleWare/JWTMiddleware.php:33-41 | a correctly signed, unexpired HS256 token whose `user_id` is `null` answers "user not found" |
| JwtMiddleware.MissingUserIdRefused | app/Http/MiddleWare/JWTMiddleware.php:33-55 | a correctly signed, unexpired HS256 token without `user_id` answers "token invalid or expired" |
| JwtMiddleware.ExpiredTokenRefused | app/Http/MiddleWare/JWTMiddleware.php:33-55 | a correctly signed HS256 token whose `exp` is not after the current time answers "token invalid or expired" |
| JwtMiddleware.OtherAlgorithmRefused | app/Http/MiddleWare/JWTMiddleware.php:33 | decoding always uses HS256: a token signed under the secret with any other algorithm answers "token invalid or expired" |
| JwtMiddleware.SpringTokenRefused | app/Http/MiddleWare/JWTMiddleware.php:33 | a token issued by the Spring service (HS512) is refused even under the same secret |
| JwtMiddleware.MissingHeaderRejected | app/Http/MiddleWare/JWTMiddleware.php:24-31 | without an Authorization header the answer is 401 "token not provided" |

## Findings

| source | as written | input that shows it | evidently intended | confidence | as-written member | corrected member |
|---|---|---|---|---|---|---|
| modulo1/src/main/java/com/eventos/modulo1/controller/AuthController.java:34-35 | the `User` bound from the request body keeps any `id` it carries. Spring Data `save` then merges it onto the stored record with that id. | a store holding `v@x.com` with id 0, and `register` with the body `{"id":0,"email":"m@x.com",...}` | registration always creates a new record and never touches another user's | medium (depends on the JPA merge behaviour; not executed) | SpringAuthController.RegisterAsWritten, SpringAuthController.RegisterOverwritesExistingRecord | SpringAuthController.Register, SpringAuthController.RegisterAgreesWithoutId |

The rest of the model uses the corrected `Register`. It clears the incoming id before the save, so the generator assigns a fresh one.

## Behaviour worth knowing

* The Spring user record is not protected at the store: `save` can overwrite a record (see Findings). No unique constraint is declared either, so one record per e-mail holds only because `register` looks the e-mail up before the save.
* The Spring `validateToken` deletes every occurrence of "Bearer " anywhere in the header, not just a leading scheme.
* The Spring controller answers both malformed tokens and signature mismatches with `isValid: false`. The model keeps the two apart in `Jws.JwtError`.
* A validly signed token without a `sub` or `name` claim is also answered `isValid: false`, because `Map.of` refuses null values.
* The JWT parser trims whitespace around the header and payload segments before it checks the MAC. So `"Bearer  <token>"` (two spaces) is accepted, although `replace` leaves a space in front of the token.
* Neither back end limits the password length, and bcrypt reads only its first 72 bytes. Once a password that long is registered, every extension of it logs in too.

## Left out

* The HMAC, bcrypt and the JWT library's JSON and base64url encodings are parameters. Unforgeability and salt freshness are not modelled. A signature is compared as base64url text. Spellings of the same MAC that a library's lenient base64 decoder might accept are not modelled. These include non-canonical padding bits and whitespace after the signature.
* JwtMiddleware.Gate: models the `exp` check of php-jwt with no leeway (a token is refused once `exp <= now`). The `nbf` and `iat` checks are not modelled: `Jws.Claims` has no such fields.
* JwtService.ValidateToken: follows the parser of the Java JWT library up to version 0.11. Only those versions have the `Jwts.parser().setSigningKey(...).parseClaimsJws(...)` calls `validateToken` makes. The `exp` and `nbf` checks jjwt makes on tokens that carry them are not modelled. The tokens `generateToken` issues carry neither claim. The same holds for SpringAuthController.ValidateToken.
* Token expiry on the Laravel controller side lives inside `JWTAuth`, which is the parameter `subjectOf`. The `expires_in` value in the login response is left out with the rest of the response body.
* SpringAuthController.RegisterThenWrongPassword: promises nothing for passwords with NUL or non-ASCII characters. bcrypt hashes UTF-8 bytes followed by a NUL terminator, so such passwords can collide in ways that `Crypto.Discriminating` does not describe. Newer Spring Security releases refuse passwords longer than 72 bytes; this model follows the truncating behaviour.
* JSON `null` in the Spring request bodies is not modelled; all `User` fields and login fields are strings. A missing Authorization header, which Spring answers with 400 before `validateToken` runs, is not modelled either.
* The Java `Long` id is an unbounded integer; overflow of the id generator is not modelled.
* Only the merge of an id that exists is modelled. A merge whose id names no stored record is modelled as a fresh insert.
* Requests are handled one at a time. The race between the duplicate check and the save in `register` is not modelled.
* The nested `HomeController`, the dependency-injection wiring, `WebSecurityConfig.java` and `routes/api.php` are framework configuration.
* `logout`, `refresh` and `profile` are left out. They only delegate to `JWTAuth`, which is not part of this model.
* Also left out: the token `register` returns (`JWTAuth::fromUser`), `expires_in`, and the response bodies beyond status and outcome.
* Mail sending in `forgotPassword` is left out. Its failure is swallowed and does not affect the outcome.
* `JWTAuth::authenticate` is the parameter `subjectOf`. Only `JWTException` is modelled as caught in `validateToken`.
* The `email` format rule is the predicate `isEmail`. The `string` rule always passes, because every modelled input is a string.
* Database collation is not modelled: `unique`, `exists` and `where` compare exactly. Laravel's global input middleware (trimming, empty string to null) is not modelled either. The input is what the controller receives.
* `bearerToken()` follows the Laravel 9/10 definition: the last "Bearer " in the header, cut at the first comma. Its source is not part of this model.
* A `$decoded` without `user_id` raises on the property read. The middleware catches this like a decoding failure.
* JwtMiddleware.Gate: the `user_id` claim is absent, `null` or an integer. A string, float, boolean, array or object value is not modelled, because what `User::find` makes of it depends on the database's type conversion.
* The Angular and React front ends are left out: they are UI, HTTP clients and local storage.

=== FILE: crypto.dfy ===
/** The password hasher both back ends rely on (`BCryptPasswordEncoder` in
    Spring, `Hash::make`/`Hash::check` in Laravel).  The hash function is a
    foreign library call, so it is a parameter of the model; the properties
    the controllers depend on are stated as predicates over it. */
module Crypto {

  /** The random salt bcrypt draws for every call to `encode`. */
  type Salt = nat

  /** `encode(plaintext, salt)` is the stored digest; `matches(plaintext,
      digest)` re-derives it with the salt embedded in `digest`. */
  datatype Hasher = Hasher(encode: (string, Salt) -> string, matches: (string, string) -> bool)

  /** bcrypt's key schedule reads at most 72 bytes of the password. */
  const KeyBytes: nat := 72

  /** A password whose characters are ASCII and not NUL: its UTF-8 bytes
      are its characters, and the NUL bcrypt appends cannot be confused
      with one of them. */
  predicate IsPlain(p: string)
  {
    forall i :: 0 <= i < |p| ==> 0 < p[i] as int < 128
  }

  /** The part of a plain password that bcrypt hashes. */
  function Significant(p: string): (r: string)
    ensures |r| == if |p| <= KeyBytes then |p| else KeyBytes
    ensures r <= p
  {
    if |p| <= KeyBytes then p else p[..KeyBytes]
  }

  /** A digest always verifies against the plaintext it was made from. */
  ghost predicate Sound(h: Hasher)
  {
    forall p, s :: h.matches(p, h.encode(p, s))
  }

  /** A digest never verifies against a plain password that differs from
      its own plaintext within the bytes bcrypt reads (no collisions). */
  ghost predicate Discriminating(h: Hasher)
  {
    forall p, q, s :: IsPlain(p) && IsPlain(q) && Significant(p) != Significant(q) ==> !h.matches(p, h.encode(q, s))
  }

  /** bcrypt ignores everything after the bytes it reads: a digest verifies
      against any plain password with the same significant part. */
  ghost predicate Truncating(h: Hasher)
  {
    forall p, q, s :: IsPlain(p) && IsPlain(q) && Significant(p) == Significant(q) ==> h.matches(p, h.encode(q, s))
  }

  /** Two plain passwords of at most 72 characters are told apart exactly
      when they differ. */
  lemma ShortPasswordsDistinct(p: string, q: string)
    requires |p| <= KeyBytes && |q| <= KeyBytes
    ensures Significant(p) != Significant(q) <==> p != q
  {
  }

  /** A password extended past the 72nd character has the same significant
      part as the password itself. */
  lemma ExtensionIndistinct(p: string, tail: string)
    requires |p| >= KeyBytes
    ensures Significant(p + tail) == Significant(p)
  {
    assert (p + tail)[..KeyBytes] == p[..KeyBytes];
  }
}

=== FILE: jws.dfy ===
/** JSON Web Signature in compact serialization (section 7.1 of RFC 7515)
    with the HMAC algorithms of section 3.2 of RFC 7518, as the JWT
    libraries on both back ends implement it.  A token is
    `header "." payload "." signature`, each part base64url text, and the
    signature is the MAC of `header "." payload` under the shared secret.
    JSON and base64url encoding and the MAC itself are library code, so they
    are the parameters of a `Codec`; `Lawful` states what the model needs
    of them. */
module Jws {
  import opened Wrappers

  /** The `alg` header parameter. */
  datatype Alg = HS256 | HS384 | HS512 | Unsupported(name: string)
  {
    /** One of the HMAC algorithms a shared secret can verify. */
    predicate IsHmac()
    {
      !Unsupported?
    }
  }

  /** The `user_id` claim as the payload's JSON holds it: absent, `null`,
      or an integer. */
  datatype IdClaim = NoUserId | NullUserId | UserId(id: int)

  /** The claims the two back ends read: `sub`, `name`, `user_id`, and the
      expiry time `exp` (section 4.1.4 of RFC 7519), in seconds. */
  datatype Claims = Claims(sub: Option<string>, name: Option<string>, userId: IdClaim, exp: Option<int>)

  /** The expiry rule of the PHP library with no leeway: a token whose
      `exp` is at or before `now` has expired; one without `exp` never does. */
  predicate Expired(claims: Claims, now: int)
  {
    claims.exp.Some? && claims.exp.value <= now
  }

  /** The encodings and the keyed MAC the library applies; `mac(alg, key,
      input)` is the base64url text of the MAC. */
  datatype Codec = Codec(
    encodeHeader: Alg -> string,
    decodeHeader: string -> Option<Alg>,
    encodeClaims: Claims -> string,
    decodeClaims: string -> Option<Claims>,
    mac: (Alg, string, string) -> string)

  /** Which algorithms a verifier accepts: any HMAC named by the header
      (jjwt given a plain secret), or exactly one (a PHP `Key` object). */
  datatype Policy = AnyHmac | Only(expected: Alg)
  {
    predicate Admits(a: Alg)
    {
      a.IsHmac() && (Only? ==> a == expected)
    }
  }

  /** Why a token was refused. */
  datatype JwtError = Malformed | UnsupportedAlgorithm | AlgorithmMismatch | SignatureMismatch

  /** The URL-safe base64 alphabet (section 5 of RFC 4648). */
  predicate IsBase64UrlChar(ch: char)
  {
    ('A' <= ch <= 'Z') || ('a' <= ch <= 'z') || ('0' <= ch <= '9') || ch == '-' || ch == '_'
  }

  predicate IsBase64Url(s: string)
  {
    forall i :: 0 <= i < |s| ==> IsBase64UrlChar(s[i])
  }

  /** What the model assumes of the library: decoding inverts encoding, and
      every encoded part, MAC included, is non-empty base64url text (a JSON
      object and an HMAC are never empty). */
  ghost predicate Lawful(c: Codec)
  {
    && (forall a :: c.decodeHeader(c.encodeHeader(a)) == Some(a))
    && (forall a :: IsBase64Url(c.encodeHeader(a)) && c.encodeHeader(a) != "")
    && (forall cl :: c.decodeClaims(c.encodeClaims(cl)) == Some(cl))
    && (forall cl :: IsBase64Url(c.encodeClaims(cl)) && c.encodeClaims(cl) != "")
    && (forall a, k, m :: IsBase64Url(c.mac(a, k, m)) && c.mac(a, k, m) != "")
  }

  /** The parts of a token joined by periods. */
  function Join(parts: seq<string>): (t: string)
    requires |parts| > 0
  {
    if |parts| == 1 then parts[0] else parts[0] + "." + Join(parts[1..])
  }

  /** The parts of `t` between periods: PHP's `explode('.', t)`, and the
      delimiter count jjwt takes. */
  function Split(t: string): (parts: seq<string>)
    ensures |parts| > 0
    ensures forall i :: 0 <= i < |parts| ==> '.' !in parts[i]
  {
    if |t| == 0 then [""]
    else if t[0] == '.' then [""] + Split(t[1..])
    else
      var rest := Split(t[1..]);
      [[t[0]] + rest[0]] + rest[1..]
  }

  /** Joining the parts of `t` gives `t` back. */
  lemma {:induction false} JoinSplit(t: string)
    ensures Join(Split(t)) == t
  {
    if |t| == 0 {
    } else if t[0] == '.' {
      JoinSplit(t[1..]);
      assert t == "." + t[1..];
    } else {
      var rest := Split(t[1..]);
      JoinSplit(t[1..]);
      if |rest| == 1 {
        assert t == [t[0]] + t[1..];
      } else {
        var parts := [[t[0]] + rest[0]] + rest[1..];
        assert parts[1..] == rest[1..];
        assert Join(rest) == rest[0] + "." + Join(rest[1..]);
        assert t == [t[0]] + t[1..];
      }
    }
  }

  /** A period-free word followed by a period starts a new part. */
  lemma {:induction false} SplitWord(w: string, rest: string)
    requires '.' !in w
    ensures Split(w + "." + rest) == [w] + Split(rest)
    ensures Split(w) == [w]
    decreases |w|
  {
    if |w| == 0 {
      assert w + "." + rest == "." + rest;
      assert ("." + rest)[1..] == rest;
    } else {
      SplitWord(w[1..], rest);
      assert (w + "." + rest)[1..] == w[1..] + "." + rest;
      assert w[1..] + "." + rest != "" && [w[0]] + w[1..] == w;
    }
  }

  /** Splitting a join of period-free parts recovers the parts. */
  lemma {:induction false} SplitJoin(parts: seq<string>)
    requires |parts| > 0
    requires forall i :: 0 <= i < |parts| ==> '.' !in parts[i]
    ensures Split(Join(parts)) == parts
  {
    if |parts| == 1 {
      SplitWord(parts[0], "");
    } else {
      SplitJoin(parts[1..]);
      SplitWord(parts[0], Join(parts[1..]));
      assert [parts[0]] + parts[1..] == parts;
    }
  }

  /** The compact serialization of the three parts. */
  function Compact(header: string, payload: string, signature: string): string
  {
    Join([header, payload, signature])
  }

  /** Reads the three parts of a token; any other number of periods than
      two is malformed. */
  function ParseCompact(t: string): (r: Option<(string, string, string)>)
    ensures r.Some? ==> t == Compact(r.value.0, r.value.1, r.value.2)
    ensures r.Some? ==> '.' !in r.value.0 && '.' !in r.value.1 && '.' !in r.value.2
  {
    var parts := Split(t);
    JoinSplit(t);
    if |parts| == 3 then
      assert parts == [parts[0], parts[1], parts[2]];
      Some((parts[0], parts[1], parts[2]))
    else None
  }

  /** Parsing a serialization of period-free parts yields the parts. */
  lemma ParseCompactOfCompact(h: string, p: string, s: string)
    requires '.' !in h && '.' !in p && '.' !in s
    ensures ParseCompact(Compact(h, p, s)) == Some((h, p, s))
  {
    SplitJoin([h, p, s]);
  }

  /** The bytes the signature covers. */
  function SigningInput(header: string, payload: string): string
  {
    header + "." + payload
  }

  /** The validation of section 5.2 of RFC 7515 for a MAC: `t` has three
      parts, the header decodes to an algorithm the policy admits, the
      payload decodes, and the signature is the MAC of the first two parts
      under `key` with that algorithm. */
  predicate WellSigned(c: Codec, key: string, policy: Policy, t: string)
  {
    && ParseCompact(t).Some?
    && var (h, p, s) := ParseCompact(t).value;
      SignedParts(c, key, policy, h, p, s)
  }

  /** The checks of section 5.2 of RFC 7515 once the three parts are read. */
  predicate SignedParts(c: Codec, key: string, policy: Policy, h: string, p: string, s: string)
  {
    && c.decodeHeader(h).Some?
    && c.decodeClaims(p).Some?
    && policy.Admits(c.decodeHeader(h).value)
    && s == c.mac(c.decodeHeader(h).value, key, SigningInput(h, p))
  }

  /** Signs `claims` with `alg` under `key`.  With a lawful codec the token
      parses into a header naming `alg`, a payload carrying `claims`, and the
      MAC of the two under `key`. */
  function Sign(c: Codec, key: string, alg: Alg, claims: Claims): (t: string)
    ensures Lawful(c) ==> ParseCompact(t).Some?
    ensures Lawful(c) ==>
      var (h, p, s) := ParseCompact(t).value;
      && c.decodeHeader(h) == Some(alg)
      && c.decodeClaims(p) == Some(claims)
      && s == c.mac(alg, key, SigningInput(h, p))
  {
    var h := c.encodeHeader(alg);
    var p := c.encodeClaims(claims);
    var s := c.mac(alg, key, SigningInput(h, p));
    assert Lawful(c) ==> ParseCompact(Compact(h, p, s)) == Some((h, p, s)) by {
      if Lawful(c) {
        Base64UrlHasNoPeriod(h);
        Base64UrlHasNoPeriod(p);
        Base64UrlHasNoPeriod(s);
        ParseCompactOfCompact(h, p, s);
      }
    }
    Compact(h, p, s)
  }

  /** Verifies `t` under `key`: the token must have exactly three parts,
      which are then checked as `VerifyParts` does. */
  function Verify(c: Codec, key: string, policy: Policy, t: string): (r: Result<Claims, JwtError>)
    ensures r.Ok? <==> WellSigned(c, key, policy, t)
    ensures r.Ok? ==> c.decodeClaims(ParseCompact(t).value.1) == Some(r.value)
    ensures ParseCompact(t).None? ==> r == Err(Malformed)
  {
    match ParseCompact(t)
    case None => Err(Malformed)
    case Some((h, p, s)) => VerifyParts(c, key, policy, h, p, s)
  }

  /** Verifies the three parts of a token: the header must name an algorithm
      the policy admits and the signature must be the MAC the verifier
      recomputes over the first two parts. */
  function VerifyParts(c: Codec, key: string, policy: Policy, h: string, p: string, s: string): (r: Result<Claims, JwtError>)
    ensures r.Ok? <==> SignedParts(c, key, policy, h, p, s)
    ensures r.Ok? ==> c.decodeClaims(p) == Some(r.value)
  {
    match c.decodeHeader(h)
    case None => Err(Malformed)
    case Some(alg) =>
      match c.decodeClaims(p)
      case None => Err(Malformed)
      case Some(claims) =>
        if !alg.IsHmac() then Err(UnsupportedAlgorithm)
        else if !policy.Admits(alg) then Err(AlgorithmMismatch)
        else if s != c.mac(alg, key, SigningInput(h, p)) then Err(SignatureMismatch)
        else Ok(claims)
  }

  lemma Base64UrlHasNoPeriod(s: string)
    requires IsBase64Url(s)
    ensures '.' !in s
  {
  }

  /** Round trip: verifying a token signed under the same key with an
      admitted algorithm yields exactly the claims that were signed. */
  lemma VerifySign(c: Codec, key: string, policy: Policy, alg: Alg, claims: Claims)
    requires Lawful(c)
    requires policy.Admits(alg)
    ensures Verify(c, key, policy, Sign(c, key, alg, claims)) == Ok(claims)
  {
  }

  /** Any change to the signature part of an accepted token is refused. */
  lemma SignatureTamperRejected(c: Codec, key: string, policy: Policy, h: string, p: string, s: string, s': string)
    requires '.' !in h && '.' !in p && '.' !in s && '.' !in s'
    requires Verify(c, key, policy, Compact(h, p, s)).Ok?
    requires s' != s
    ensures Verify(c, key, policy, Compact(h, p, s')).Err?
  {
    ParseCompactOfCompact(h, p, s);
    ParseCompactOfCompact(h, p, s');
  }

  /** A token signed under one key is refused under another key whose MAC
      over the same input differs. */
  lemma WrongKeyRejected(c: Codec, key: string, other: string, policy: Policy, alg: Alg, claims: Claims)
    requires Lawful(c)
    requires var m := SigningInput(c.encodeHeader(alg), c.encodeClaims(claims));
      c.mac(alg, key, m) != c.mac(alg, other, m)
    ensures Verify(c, other, policy, Sign(c, key, alg, claims)).Err?
  {
    var h := c.encodeHeader(alg);
    var p := c.encodeClaims(claims);
    var s := c.mac(alg, key, SigningInput(h, p));
    Base64UrlHasNoPeriod(h);
    Base64UrlHasNoPeriod(p);
    Base64UrlHasNoPeriod(s);
    ParseCompactOfCompact(h, p, s);
  }

  /** Every character of a signed token is base64url or a period. */
  lemma SignedAlphabet(c: Codec, key: string, alg: Alg, claims: Claims)
    requires Lawful(c)
    ensures forall i :: 0 <= i < |Sign(c, key, alg, claims)| ==>
      IsBase64UrlChar(Sign(c, key, alg, claims)[i]) || Sign(c, key, alg, claims)[i] == '.'
  {
    var h := c.encodeHeader(alg);
    var p := c.encodeClaims(claims);
    var s := c.mac(alg, key, SigningInput(h, p));
    assert [h, p, s][1..] == [p, s] && [p, s][1..] == [s];
    assert Join([p, s]) == p + "." + s;
    assert Join([h, p, s]) == h + "." + (p + "." + s);
    assert Sign(c, key, alg, claims) == h + "." + (p + "." + s);
  }
}

=== FILE: jwt_middleware.dfy ===
/** The Laravel `JWTMiddleware`: the gate in front of protected routes.
    It reads the bearer token, decodes it as an HS256 JWT under the
    configured secret, loads the user named by the `user_id` claim, and only
    then hands the request, now carrying that user, to the next handler.
    Every failure answers 401 without calling the next handler. */
module JwtMiddleware {
  import opened Wrappers
  import Jws
  import Text
  import LaravelRequest
  import JwtService
  import UserEntity
  import opened LaravelAuthController

  const NoTokenMessage: string := "Token de acesso não fornecido"
  const UnknownUserMessage: string := "Usuário não encontrado"
  const InvalidTokenMessage: string := "Token inválido ou expirado"

  /** The request as the middleware sees it and passes it on. */
  datatype Request = Request(authorization: Option<string>, user: Option<Account>)

  datatype Response = Response(status: int, message: string)

  /** What the gate decides before anything downstream runs. */
  datatype Decision = Reject(message: string) | Forward(account: Account)

  /** The decision, at time `now`.  `JWT::decode` refuses a token that is
      malformed, not HS256, wrongly signed or expired; a token without a
      `user_id` claim makes reading `$decoded->user_id` raise; the handler
      catches both alike.  A verified `user_id` that names no row is the
      one failure with its own message; `User::find(null)` finds no row, so
      a `null` claim ends there too. */
  function Gate(db: Users, codec: Jws.Codec, secret: string, authorization: Option<string>, now: int): (r: Decision)
    ensures LaravelRequest.Falsy(LaravelRequest.BearerToken(authorization)) <==> r == Reject(NoTokenMessage)
    ensures !LaravelRequest.Falsy(LaravelRequest.BearerToken(authorization)) ==>
      var v := Jws.Verify(codec, secret, Jws.Only(Jws.HS256), LaravelRequest.BearerToken(authorization).value);
      && (v.Err? ==> r == Reject(InvalidTokenMessage))
      && (v.Ok? && Jws.Expired(v.value, now) ==> r == Reject(InvalidTokenMessage))
      && (v.Ok? && v.value.userId.NoUserId? ==> r == Reject(InvalidTokenMessage))
      && (v.Ok? && !Jws.Expired(v.value, now) && v.value.userId.NullUserId? ==> r == Reject(UnknownUserMessage))
      && (v.Ok? && !Jws.Expired(v.value, now) && v.value.userId.UserId? ==>
            ((forall i :: 0 <= i < |db.rows| ==> db.rows[i].id != v.value.userId.id) <==> r == Reject(UnknownUserMessage)))
    ensures r.Forward? <==>
      && !LaravelRequest.Falsy(LaravelRequest.BearerToken(authorization))
      && var v := Jws.Verify(codec, secret, Jws.Only(Jws.HS256), LaravelRequest.BearerToken(authorization).value);
        && v.Ok? && !Jws.Expired(v.value, now) && v.value.userId.UserId?
        && (exists i :: 0 <= i < |db.rows| && db.rows[i].id == v.value.userId.id)
    ensures r.Forward? ==>
      var v := Jws.Verify(codec, secret, Jws.Only(Jws.HS256), LaravelRequest.BearerToken(authorization).value);
      && v.value.userId == Jws.UserId(r.account.id)
      && (exists i :: 0 <= i < |db.rows| && db.rows[i] == r.account)
    ensures r.Reject? ==> r.message in {NoTokenMessage, UnknownUserMessage, InvalidTokenMessage}
  {
    var token := LaravelRequest.BearerToken(authorization);
    if LaravelRequest.Falsy(token) then Reject(NoTokenMessage)
    else
      match Jws.Verify(codec, secret, Jws.Only(Jws.HS256), token.value)
      case Err(_) => Reject(InvalidTokenMessage)
      case Ok(claims) =>
        if Jws.Expired(claims, now) then Reject(InvalidTokenMessage)
        else
          match claims.userId
          case NoUserId => Reject(InvalidTokenMessage)
          case NullUserId => Reject(UnknownUserMessage)
          case UserId(id) =>
            match First(db.rows, ById(id))
            case None => Reject(UnknownUserMessage)
            case Some(i) => Forward(db.rows[i])
  }

  /** `handle`: a rejection is a 401 with the gate's message; otherwise the
      response is whatever `next` answers for the request carrying the
      resolved user. */
  function Handle(db: Users, codec: Jws.Codec, secret: string, req: Request, now: int, next: Request -> Response): (r: Response)
    ensures Gate(db, codec, secret, req.authorization, now).Reject? ==>
      r == Response(401, Gate(db, codec, secret, req.authorization, now).message)
    ensures Gate(db, codec, secret, req.authorization, now).Forward? ==>
      r == next(req.(user := Some(Gate(db, codec, secret, req.authorization, now).account)))
  {
    match Gate(db, codec, secret, req.authorization, now)
    case Reject(message) => Response(401, message)
    case Forward(account) => next(req.(user := Some(account)))
  }

  /** On every rejection the response does not depend on `next`: the next
      handler is not called. */
  lemma RejectionIgnoresNext(db: Users, codec: Jws.Codec, secret: string, req: Request, now: int,
                             next: Request -> Response, other: Request -> Response)
    requires Gate(db, codec, secret, req.authorization, now).Reject?
    ensures Handle(db, codec, secret, req, now, next) == Handle(db, codec, secret, req, now, other)
    ensures Handle(db, codec, secret, req, now, next).status == 401
  {
  }

  /** A token signed with HS256 under the configured secret whose `user_id`
      names a user of a well-formed table lets the request through with
      that user. */
  lemma SignedTokenForwarded(db: Users, codec: Jws.Codec, secret: string, claims: Jws.Claims, i: nat, now: int)
    requires Jws.Lawful(codec) && Wf(db) && i < |db.rows|
    requires claims.userId == Jws.UserId(db.rows[i].id) && !Jws.Expired(claims, now)
    ensures Gate(db, codec, secret, Some(Text.BearerScheme + Jws.Sign(codec, secret, Jws.HS256, claims)), now)
      == Forward(db.rows[i])
  {
    var t := Jws.Sign(codec, secret, Jws.HS256, claims);
    TokenCharacters(codec, secret, Jws.HS256, claims);
    LaravelRequest.BearerTokenOfScheme(t);
    Jws.VerifySign(codec, secret, Jws.Only(Jws.HS256), Jws.HS256, claims);
    FirstById(db, i);
  }

  /** A correctly signed, unexpired HS256 token whose `user_id` is `null`
      gets past decoding but names no user. */
  lemma NullUserIdUnknown(db: Users, codec: Jws.Codec, secret: string, claims: Jws.Claims, now: int)
    requires Jws.Lawful(codec)
    requires claims.userId == Jws.NullUserId && !Jws.Expired(claims, now)
    ensures Gate(db, codec, secret, Some(Text.BearerScheme + Jws.Sign(codec, secret, Jws.HS256, claims)), now)
      == Reject(UnknownUserMessage)
  {
    var t := Jws.Sign(codec, secret, Jws.HS256, claims);
    TokenCharacters(codec, secret, Jws.HS256, claims);
    LaravelRequest.BearerTokenOfScheme(t);
    Jws.VerifySign(codec, secret, Jws.Only(Jws.HS256), Jws.HS256, claims);
  }

  /** A correctly signed, unexpired HS256 token without a `user_id` claim
      fails on reading the claim and is answered as an invalid token. */
  lemma MissingUserIdRefused(db: Users, codec: Jws.Codec, secret: string, claims: Jws.Claims, now: int)
    requires Jws.Lawful(codec)
    requires claims.userId == Jws.NoUserId && !Jws.Expired(claims, now)
    ensures Gate(db, codec, secret, Some(Text.BearerScheme + Jws.Sign(codec, secret, Jws.HS256, claims)), now)
      == Reject(InvalidTokenMessage)
  {
    var t := Jws.Sign(codec, secret, Jws.HS256, claims);
    TokenCharacters(codec, secret, Jws.HS256, claims);
    LaravelRequest.BearerTokenOfScheme(t);
    Jws.VerifySign(codec, secret, Jws.Only(Jws.HS256), Jws.HS256, claims);
  }

  /** A correctly signed HS256 token is refused once its `exp` is at or
      before `now`, whoever it names. */
  lemma ExpiredTokenRefused(db: Users, codec: Jws.Codec, secret: string, claims: Jws.Claims, now: int)
    requires Jws.Lawful(codec)
    requires claims.exp.Some? && claims.exp.value <= now
    ensures Gate(db, codec, secret, Some(Text.BearerScheme + Jws.Sign(codec, secret, Jws.HS256, claims)), now)
      == Reject(InvalidTokenMessage)
  {
    var t := Jws.Sign(codec, secret, Jws.HS256, claims);
    TokenCharacters(codec, secret, Jws.HS256, claims);
    LaravelRequest.BearerTokenOfScheme(t);
    Jws.VerifySign(codec, secret, Jws.Only(Jws.HS256), Jws.HS256, claims);
  }

  /** A signed token holds no space or comma and is neither "" nor "0". */
  lemma TokenCharacters(codec: Jws.Codec, secret: string, alg: Jws.Alg, claims: Jws.Claims)
    requires Jws.Lawful(codec)
    ensures var t := Jws.Sign(codec, secret, alg, claims);
      ' ' !in t && ',' !in t && t != "" && t != "0"
  {
    var t := Jws.Sign(codec, secret, alg, claims);
    Jws.SignedAlphabet(codec, secret, alg, claims);
    var h := codec.encodeHeader(alg);
    var p := codec.encodeClaims(claims);
    assert t == Jws.Join([h, p, codec.mac(alg, secret, Jws.SigningInput(h, p))]);
    assert t[|h|] == '.';
  }

  /** Decoding always uses HS256: a token signed under the configured
      secret but with any other algorithm in its header is refused. */
  lemma OtherAlgorithmRefused(db: Users, codec: Jws.Codec, secret: string, alg: Jws.Alg, claims: Jws.Claims, now: int)
    requires Jws.Lawful(codec) && alg != Jws.HS256
    ensures Gate(db, codec, secret, Some(Text.BearerScheme + Jws.Sign(codec, secret, alg, claims)), now)
      == Reject(InvalidTokenMessage)
  {
    var t := Jws.Sign(codec, secret, alg, claims);
    TokenCharacters(codec, secret, alg, claims);
    LaravelRequest.BearerTokenOfScheme(t);
    var h := codec.encodeHeader(alg);
    var p := codec.encodeClaims(claims);
    var s := codec.mac(alg, secret, Jws.SigningInput(h, p));
    Jws.Base64UrlHasNoPeriod(h);
    Jws.Base64UrlHasNoPeriod(p);
    Jws.Base64UrlHasNoPeriod(s);
    Jws.ParseCompactOfCompact(h, p, s);
  }

  /** In particular a token the Spring service issued (HS512) is refused,
      even under the same secret. */
  lemma SpringTokenRefused(db: Users, svc: JwtService.Service, u: UserEntity.User, now: int)
    requires Jws.Lawful(svc.codec)
    ensures Gate(db, svc.codec, svc.secret, Some(Text.BearerScheme + JwtService.GenerateToken(svc, u)), now)
      == Reject(InvalidTokenMessage)
  {
    OtherAlgorithmRefused(db, svc.codec, svc.secret, Jws.HS512, JwtService.Issued(u), now);
  }

  /** With no Authorization header the answer is "token not provided". */
  lemma MissingHeaderRejected(db: Users, codec: Jws.Codec, secret: string, now: int)
    ensures Gate(db, codec, secret, None, now) == Reject(NoTokenMessage)
  {
  }
}

=== FILE: jwt_service.dfy ===
/** The Spring back end's `JwtService`: issues an HS512-signed JWT whose
    subject is the user's e-mail and which carries the user's name as the
    `name` claim, and validates tokens under the same secret.  No `exp` or
    `iat` claim is set, so a token depends on nothing but e-mail, name and
    secret. */
module JwtService {
  import opened Wrappers
  import Jws
  import Text
  import UserEntity

  /** The service: the configured `jwt.secret` and the JWT library. The
      secret is a field of an immutable value, so signing and validation
      necessarily read the same secret and neither can change it. */
  datatype Service = Service(secret: string, codec: Jws.Codec)

  /** The claim set `generateToken` builds for `u`: subject and name, no
      expiry. */
  function Issued(u: UserEntity.User): Jws.Claims
  {
    Jws.Claims(Some(u.email), Some(u.name), Jws.NoUserId, None)
  }

  /** `generateToken`: an HS512 token carrying `sub` = e-mail and
      `name` = name, which this service's own validation accepts and reads
      back. */
  function GenerateToken(svc: Service, u: UserEntity.User): (t: string)
    ensures Jws.Lawful(svc.codec) ==> Jws.ParseCompact(t).Some?
    ensures Jws.Lawful(svc.codec) ==>
      var (h, p, _) := Jws.ParseCompact(t).value;
      && svc.codec.decodeHeader(h) == Some(Jws.HS512)
      && svc.codec.decodeClaims(p) == Some(Jws.Claims(Some(u.email), Some(u.name), Jws.NoUserId, None))
    ensures Jws.Lawful(svc.codec) ==> ValidateToken(svc, t) == Ok(Jws.Claims(Some(u.email), Some(u.name), Jws.NoUserId, None))
  {
    var t := Jws.Sign(svc.codec, svc.secret, Jws.HS512, Issued(u));
    assert Jws.Lawful(svc.codec) ==> ValidateToken(svc, t) == Ok(Issued(u)) by {
      if Jws.Lawful(svc.codec) {
        PaddedSignedAccepted(svc, "", Jws.HS512, Issued(u));
        assert "" + t == t;
      }
    }
    t
  }

  /** How the Java JWT library whose `Jwts.parser()` this code calls reads
      a compact token: it needs exactly two periods; the header and payload
      segments go through `Strings.clean`, which trims surrounding
      whitespace and treats an empty result as missing; the signature
      segment is taken as it is, and an empty one makes the token unsigned,
      which `parseClaimsJws` refuses.  Each segment read is the segment of
      the token with only whitespace around it. */
  function Segments(t: string): (r: Option<(string, string, string)>)
    ensures Jws.ParseCompact(t).None? ==> r.None?
    ensures r.Some? ==> r.value.0 != "" && r.value.1 != "" && r.value.2 != ""
    ensures r.Some? ==>
      var (h, p, s) := Jws.ParseCompact(t).value;
      && (exists i :: Text.PaddedAt(h, r.value.0, i))
      && (exists i :: Text.PaddedAt(p, r.value.1, i))
      && r.value.2 == s
  {
    match Jws.ParseCompact(t)
    case None => None
    case Some((h, p, s)) =>
      var h', p' := Text.Strip(h), Text.Strip(p);
      if h' == "" || p' == "" || s == "" then None else Some((h', p', s))
  }

  /** Whitespace in front of a token of non-empty base64url parts is
      ignored: the segments read are the parts themselves. */
  lemma SegmentsOfPadded(pad: string, h: string, p: string, s: string)
    requires forall i :: 0 <= i < |pad| ==> Text.IsJavaWhitespace(pad[i])
    requires Jws.IsBase64Url(h) && Jws.IsBase64Url(p) && Jws.IsBase64Url(s)
    requires h != "" && p != "" && s != ""
    ensures Segments(pad + Jws.Compact(h, p, s)) == Some((h, p, s))
  {
    PaddedCompact(pad, h, p, s);
    Jws.ParseCompactOfCompact(pad + h, p, s);
    StripBase64Url(h);
    StripBase64Url(p);
    Text.StripPadded(pad, h);
  }

  /** Padding in front of a token pads its first part. */
  lemma PaddedCompact(pad: string, h: string, p: string, s: string)
    requires forall i :: 0 <= i < |pad| ==> Text.IsJavaWhitespace(pad[i])
    requires Jws.IsBase64Url(h) && Jws.IsBase64Url(p) && Jws.IsBase64Url(s)
    ensures pad + Jws.Compact(h, p, s) == Jws.Compact(pad + h, p, s)
    ensures '.' !in pad + h && '.' !in p && '.' !in s
  {
    assert [h, p, s][1..] == [p, s] && [p, s][1..] == [s];
    assert [pad + h, p, s][1..] == [p, s];
    forall i | 0 <= i < |pad + h| ensures (pad + h)[i] != '.' {
      if i >= |pad| { assert (pad + h)[i] == h[i - |pad|]; }
    }
  }

  /** Base64url text holds no whitespace, so `Strings.clean` keeps it. */
  lemma StripBase64Url(x: string)
    requires Jws.IsBase64Url(x)
    ensures Text.Strip(x) == x
  {
    Text.StripKeeps(x);
  }

  /** `validateToken`: jjwt given the secret accepts a token iff its
      segments are read and are well signed under the secret with whatever
      HMAC algorithm the header names, and then returns the payload's
      claims; every failure is an error value. */
  function ValidateToken(svc: Service, t: string): (r: Result<Jws.Claims, Jws.JwtError>)
    ensures r.Ok? <==>
      && Segments(t).Some?
      && var (h, p, s) := Segments(t).value;
        Jws.SignedParts(svc.codec, svc.secret, Jws.AnyHmac, h, p, s)
    ensures r.Ok? ==>
      var (h, p, s) := Segments(t).value;
      && s == svc.codec.mac(svc.codec.decodeHeader(h).value, svc.secret, Jws.SigningInput(h, p))
      && svc.codec.decodeClaims(p) == Some(r.value)
  {
    match Segments(t)
    case None => Err(Jws.Malformed)
    case Some((h, p, s)) => Jws.VerifyParts(svc.codec, svc.secret, Jws.AnyHmac, h, p, s)
  }

  /** Whitespace in front of a generated token does not stop it validating:
      the library trims the header segment before it checks the MAC. */
  lemma PaddedTokenAccepted(svc: Service, u: UserEntity.User, pad: string)
    requires Jws.Lawful(svc.codec)
    requires forall i :: 0 <= i < |pad| ==> Text.IsJavaWhitespace(pad[i])
    ensures ValidateToken(svc, pad + GenerateToken(svc, u)) == Ok(Issued(u))
  {
    PaddedSignedAccepted(svc, pad, Jws.HS512, Issued(u));
  }

  /** A token signed under the service's secret with an HMAC algorithm,
      whitespace in front or not, validates to the claims signed. */
  lemma PaddedSignedAccepted(svc: Service, pad: string, alg: Jws.Alg, claims: Jws.Claims)
    requires Jws.Lawful(svc.codec) && alg.IsHmac()
    requires forall i :: 0 <= i < |pad| ==> Text.IsJavaWhitespace(pad[i])
    ensures ValidateToken(svc, pad + Jws.Sign(svc.codec, svc.secret, alg, claims)) == Ok(claims)
  {
    var h := svc.codec.encodeHeader(alg);
    var p := svc.codec.encodeClaims(claims);
    var s := svc.codec.mac(alg, svc.secret, Jws.SigningInput(h, p));
    SegmentsOfPadded(pad, h, p, s);
  }

  /** The token is a function of e-mail, name and secret only: the id and
      the password hash do not enter it, and there is no clock. */
  lemma TokenDependsOnEmailAndName(svc: Service, u: UserEntity.User, v: UserEntity.User)
    requires u.email == v.email && u.name == v.name
    ensures GenerateToken(svc, u) == GenerateToken(svc, v)
  {
  }

  /** A token generated by a service with another secret is refused when
      the two secrets' MACs over it differ. */
  lemma OtherSecretRejected(svc: Service, other: Service, u: UserEntity.User)
    requires Jws.Lawful(svc.codec) && other.codec == svc.codec
    requires var m := Jws.SigningInput(svc.codec.encodeHeader(Jws.HS512), svc.codec.encodeClaims(Issued(u)));
      svc.codec.mac(Jws.HS512, svc.secret, m) != svc.codec.mac(Jws.HS512, other.secret, m)
    ensures ValidateToken(other, GenerateToken(svc, u)).Err?
  {
    var h := svc.codec.encodeHeader(Jws.HS512);
    var p := svc.codec.encodeClaims(Issued(u));
    var s := svc.codec.mac(Jws.HS512, svc.secret, Jws.SigningInput(h, p));
    SegmentsOfPadded("", h, p, s);
    assert "" + Jws.Compact(h, p, s) == GenerateToken(svc, u);
  }
}

=== FILE: laravel_auth.dfy ===
/** The Laravel back end's `AuthController`: `register`, `login`,
    `validateToken`, and the password-reset pair `forgotPassword` /
    `resetPassword`.  The `users` table is a sequence of rows in id order;
    `where(...)->first()` is the first matching row. Time (`now()`) is a
    parameter in seconds, and so is the output of `Str::random`. */
module LaravelAuthController {
  import opened Wrappers
  import Crypto
  import Text
  import opened LaravelValidation
  import LaravelRequest

  /** A row of `users`. */
  datatype Account = Account(
    id: nat,
    name: string,
    email: string,
    password: string,
    phone: Option<string>,
    course: Option<string>,
    registrationNumber: Option<string>,
    userType: string,
    resetToken: Option<string>,
    resetTokenExpiresAt: Option<int>)

  /** The `users` table and its auto-increment counter. */
  datatype Users = Users(rows: seq<Account>, nextId: nat)

  /** Ids are distinct and below the counter; e-mails are distinct (every
      insertion passes `unique:users`). */
  ghost predicate Wf(db: Users)
  {
    && (forall i :: 0 <= i < |db.rows| ==> db.rows[i].id < db.nextId)
    && (forall i, j :: 0 <= i < j < |db.rows| ==> db.rows[i].id != db.rows[j].id)
    && (forall i, j :: 0 <= i < j < |db.rows| ==> db.rows[i].email != db.rows[j].email)
  }

  /** The `email` column. */
  function Emails(db: Users): (r: set<string>)
    ensures forall i :: 0 <= i < |db.rows| ==> db.rows[i].email in r
    ensures forall e :: e in r ==> exists i :: 0 <= i < |db.rows| && db.rows[i].email == e
  {
    set i | 0 <= i < |db.rows| :: db.rows[i].email
  }

  /** The index of the first row at or after `from` that satisfies `p`. */
  function FirstFrom(rows: seq<Account>, p: Account -> bool, from: nat): (r: Option<nat>)
    requires from <= |rows|
    ensures r.Some? ==> from <= r.value < |rows| && p(rows[r.value])
    ensures r.Some? ==> forall j :: from <= j < r.value ==> !p(rows[j])
    ensures r.None? ==> forall j :: from <= j < |rows| ==> !p(rows[j])
    decreases |rows| - from
  {
    if from == |rows| then None
    else if p(rows[from]) then Some(from)
    else FirstFrom(rows, p, from + 1)
  }

  /** `where(...)->first()`: the first row satisfying `p`, or null. */
  function First(rows: seq<Account>, p: Account -> bool): (r: Option<nat>)
    ensures r.Some? ==> r.value < |rows| && p(rows[r.value])
    ensures r.Some? ==> forall j :: 0 <= j < r.value ==> !p(rows[j])
    ensures r.None? <==> forall j :: 0 <= j < |rows| ==> !p(rows[j])
  {
    FirstFrom(rows, p, 0)
  }

  /** `where('email', e)`. */
  function ByEmail(e: string): Account -> bool
  {
    (a: Account) => a.email == e
  }

  /** `where('id', id)`, as `find` issues it. */
  function ById(id: int): Account -> bool
  {
    (a: Account) => a.id == id
  }

  /** In a well-formed table the row with a given e-mail is unique, so the
      first one is the one. */
  lemma FirstByEmail(db: Users, i: nat)
    requires Wf(db) && i < |db.rows|
    ensures First(db.rows, ByEmail(db.rows[i].email)) == Some(i)
  {
    assert ByEmail(db.rows[i].email)(db.rows[i]);
  }

  /** Same for ids. */
  lemma FirstById(db: Users, i: nat)
    requires Wf(db) && i < |db.rows|
    ensures First(db.rows, ById(db.rows[i].id)) == Some(i)
  {
    assert ById(db.rows[i].id)(db.rows[i]);
  }

  /** Replacing one row by a row with the same id and e-mail keeps the
      table well formed. */
  lemma UpdateKeepsWf(db: Users, i: nat, a: Account)
    requires Wf(db) && i < |db.rows|
    requires a.id == db.rows[i].id && a.email == db.rows[i].email
    ensures Wf(Users(db.rows[i := a], db.nextId))
  {
  }

  // ---------------------------------------------------------------- register

  const Roles: seq<string> := ["student", "teacher", "admin"]

  /** The rule array of `register`. */
  const RegisterRules: RuleSet := map[
    "name" := [Required, Str, Max(255)],
    "email" := [Required, Str, EmailFormat, Max(255), Unique],
    "password" := [Required, Str, Min(6), Confirmed],
    "phone" := [Nullable, Str, Max(20)],
    "course" := [Nullable, Str, Max(100)],
    "registration_number" := [Nullable, Str, Max(50)],
    "user_type" := [Nullable, In(Roles)]
  ]

  datatype RegisterResponse = RegisterInvalid(errors: set<string>) | Registered(account: Account)
  {
    function Status(): int { if Registered? then 201 else 422 }
  }

  /** `register`: validate, then `User::create` with the hashed password
      and `user_type ?? 'student'`. */
  function Register(db: Users, hasher: Crypto.Hasher, isEmail: string -> bool, data: Input, salt: Crypto.Salt)
    : (r: (Users, RegisterResponse))
    ensures r.1.RegisterInvalid? ==> r.0 == db && r.1.errors != {}
    ensures r.1.Registered? ==>
      && r.0 == Users(db.rows + [r.1.account], db.nextId + 1)
      && r.1.account.id == db.nextId
      && Filled(data, "name") && r.1.account.name == data["name"]
      && Filled(data, "email") && r.1.account.email == data["email"] && data["email"] !in Emails(db)
      && Filled(data, "password") && r.1.account.password == hasher.encode(data["password"], salt)
      && r.1.account.userType == (if "user_type" in data then data["user_type"] else "student")
      && r.1.account.resetToken.None? && r.1.account.resetTokenExpiresAt.None?
    ensures Wf(db) ==> Wf(r.0)
  {
    var ctx := Context(isEmail, Emails(db));
    var errors := Failures(RegisterRules, data, ctx);
    if errors != {} then (db, RegisterInvalid(errors))
    else
      RequiredPresent(RegisterRules, "name", data, ctx);
      RequiredPresent(RegisterRules, "email", data, ctx);
      RequiredPresent(RegisterRules, "password", data, ctx);
      assert data["email"] !in Emails(db) by {
        assert Runs(Unique, Lookup(data, "email"));
        assert RegisterRules["email"][4] == Unique;
      }
      var account := Account(
        db.nextId, data["name"], data["email"], hasher.encode(data["password"], salt),
        Lookup(data, "phone"), Lookup(data, "course"), Lookup(data, "registration_number"),
        if "user_type" in data then data["user_type"] else "student",
        None, None);
      (Users(db.rows + [account], db.nextId + 1), Registered(account))
  }

  /** A nullable attribute with a length limit: absent, blank or short
      enough. */
  predicate FitsOrBlank(data: Input, attr: string, n: nat)
  {
    !Filled(data, attr) || |data[attr]| <= n
  }

  /** The conditions under which `register` accepts a request, one per rule
      of the rule array. */
  predicate RegisterAcceptable(db: Users, isEmail: string -> bool, data: Input)
  {
    && Filled(data, "name") && |data["name"]| <= 255
    && Filled(data, "email") && isEmail(data["email"]) && |data["email"]| <= 255
    && data["email"] !in Emails(db)
    && Filled(data, "password") && |data["password"]| >= 6
    && Lookup(data, "password_confirmation") == Some(data["password"])
    && FitsOrBlank(data, "phone", 20)
    && FitsOrBlank(data, "course", 100)
    && FitsOrBlank(data, "registration_number", 50)
    && (!Filled(data, "user_type") || data["user_type"] in Roles)
  }

  /** `register` creates a user exactly when every rule holds, and answers
      422 without creating anything otherwise: a missing or over-long name;
      a missing, malformed, over-long or already used e-mail; a short or
      unconfirmed password; an over-long phone, course or registration
      number; a user type outside student, teacher and admin. */
  lemma RegisterAcceptsIff(db: Users, hasher: Crypto.Hasher, isEmail: string -> bool, data: Input, salt: Crypto.Salt)
    ensures Register(db, hasher, isEmail, data, salt).1.Registered? <==> RegisterAcceptable(db, isEmail, data)
    ensures !RegisterAcceptable(db, isEmail, data) ==>
      Register(db, hasher, isEmail, data, salt).0 == db && Register(db, hasher, isEmail, data, salt).1.Status() == 422
  {
    var ctx := Context(isEmail, Emails(db));
    var errors := Failures(RegisterRules, data, ctx);
    NameRule(data, ctx);
    EmailRule(data, ctx);
    PasswordRule(data, ctx);
    LengthRule("phone", 20, data, ctx);
    LengthRule("course", 100, data, ctx);
    LengthRule("registration_number", 50, data, ctx);
    UserTypeRule(data, ctx);
    assert errors == {} <==>
      && "name" !in errors && "email" !in errors && "password" !in errors
      && "phone" !in errors && "course" !in errors && "registration_number" !in errors
      && "user_type" !in errors;
  }

  lemma NameRule(data: Input, ctx: Context)
    ensures "name" in Failures(RegisterRules, data, ctx) <==> !(Filled(data, "name") && |data["name"]| <= 255)
  {
    var rules := RegisterRules["name"];
    var v := Lookup(data, "name");
    if !(Filled(data, "name") && |data["name"]| <= 255) {
      if Filled(data, "name") { assert Runs(rules[2], v) && !Passes(rules[2], "name", v, data, ctx); }
      else { assert Runs(rules[0], v) && !Passes(rules[0], "name", v, data, ctx); }
    }
  }

  lemma EmailRule(data: Input, ctx: Context)
    ensures "email" in Failures(RegisterRules, data, ctx) <==>
      !(Filled(data, "email") && ctx.isEmail(data["email"]) && |data["email"]| <= 255 && data["email"] !in ctx.emails)
  {
    var rules := RegisterRules["email"];
    var v := Lookup(data, "email");
    if !Filled(data, "email") {
      assert Runs(rules[0], v) && !Passes(rules[0], "email", v, data, ctx);
    } else if !ctx.isEmail(data["email"]) {
      assert Runs(rules[2], v) && !Passes(rules[2], "email", v, data, ctx);
    } else if |data["email"]| > 255 {
      assert Runs(rules[3], v) && !Passes(rules[3], "email", v, data, ctx);
    } else if data["email"] in ctx.emails {
      assert Runs(rules[4], v) && !Passes(rules[4], "email", v, data, ctx);
    }
  }

  lemma PasswordRule(data: Input, ctx: Context)
    ensures "password" in Failures(RegisterRules, data, ctx) <==>
      !(Filled(data, "password") && |data["password"]| >= 6
        && Lookup(data, "password_confirmation") == Some(data["password"]))
  {
    var rules := RegisterRules["password"];
    var v := Lookup(data, "password");
    if !Filled(data, "password") {
      assert Runs(rules[0], v) && !Passes(rules[0], "password", v, data, ctx);
    } else if |data["password"]| < 6 {
      assert Runs(rules[2], v) && !Passes(rules[2], "password", v, data, ctx);
    } else if Lookup(data, "password_confirmation") != Some(data["password"]) {
      assert "password" + "_confirmation" == "password_confirmation";
      assert Runs(rules[3], v) && !Passes(rules[3], "password", v, data, ctx);
    } else {
      assert "password" + "_confirmation" == "password_confirmation";
    }
  }

  lemma LengthRule(attr: string, n: nat, data: Input, ctx: Context)
    requires attr in RegisterRules && RegisterRules[attr] == [Nullable, Str, Max(n)]
    ensures attr in Failures(RegisterRules, data, ctx) <==> !FitsOrBlank(data, attr, n)
  {
    var rules := RegisterRules[attr];
    var v := Lookup(data, attr);
    if !FitsOrBlank(data, attr, n) {
      assert Runs(rules[2], v) && !Passes(rules[2], attr, v, data, ctx);
    }
  }

  lemma UserTypeRule(data: Input, ctx: Context)
    ensures "user_type" in Failures(RegisterRules, data, ctx) <==>
      !(!Filled(data, "user_type") || data["user_type"] in Roles)
  {
    var rules := RegisterRules["user_type"];
    var v := Lookup(data, "user_type");
    if Filled(data, "user_type") && data["user_type"] !in Roles {
      assert Runs(rules[1], v) && !Passes(rules[1], "user_type", v, data, ctx);
    }
  }

  /** The stored user type is `student` when none was given; otherwise it
      is the given one, which the `in` rule limits to student, teacher and
      admin unless it is blank (a blank value skips the rule). */
  lemma RegisteredUserType(db: Users, hasher: Crypto.Hasher, isEmail: string -> bool, data: Input, salt: Crypto.Salt)
    requires Register(db, hasher, isEmail, data, salt).1.Registered?
    ensures var t := Register(db, hasher, isEmail, data, salt).1.account.userType;
      && ("user_type" !in data ==> t == "student")
      && (t in Roles || ("user_type" in data && Text.IsBlank(t)))
  {
    RegisterAcceptsIff(db, hasher, isEmail, data, salt);
  }

  // ------------------------------------------------------------------- login

  /** The rule array of `login`. */
  const LoginRules: RuleSet := map[
    "email" := [Required, EmailFormat],
    "password" := [Required, Str]
  ]

  datatype LoginResponse =
    | LoginInvalid(errors: set<string>)
    | BadCredentials
    | TokenError
    | LoggedIn(token: string, account: Account)
  {
    function Status(): int
    {
      match this
      case LoginInvalid(_) => 422
      case BadCredentials => 401
      case TokenError => 500
      case LoggedIn(_, _) => 200
    }
  }

  /** Row `i` is the first row with `email`, and `password` matches its
      digest. */
  predicate FirstWithMatchingDigest(db: Users, hasher: Crypto.Hasher, email: string, password: string, i: int)
  {
    && 0 <= i < |db.rows| && db.rows[i].email == email
    && hasher.matches(password, db.rows[i].password)
    && (forall j :: 0 <= j < i ==> db.rows[j].email != email)
  }

  /** The first row with the e-mail if the password matches its digest:
      what `JWTAuth::attempt` checks before it issues a token. */
  function Authenticate(db: Users, hasher: Crypto.Hasher, email: string, password: string): (r: Option<nat>)
    ensures r.Some? ==> r.value < |db.rows| && db.rows[r.value].email == email
    ensures r.Some? ==> hasher.matches(password, db.rows[r.value].password)
    ensures r.Some? ==> FirstWithMatchingDigest(db, hasher, email, password, r.value)
    ensures r.Some? <==> exists i :: FirstWithMatchingDigest(db, hasher, email, password, i)
  {
    match First(db.rows, ByEmail(email))
    case None =>
      assert forall k :: !FirstWithMatchingDigest(db, hasher, email, password, k) by {
        forall k | 0 <= k < |db.rows| ensures db.rows[k].email != email {
          assert !ByEmail(email)(db.rows[k]);
        }
      }
      None
    case Some(i) =>
      assert forall k :: FirstWithMatchingDigest(db, hasher, email, password, k) ==> k == i;
      if hasher.matches(password, db.rows[i].password) then
        assert ByEmail(email)(db.rows[i]);
        assert forall j :: 0 <= j < i ==> !ByEmail(email)(db.rows[j]);
        assert FirstWithMatchingDigest(db, hasher, email, password, i);
        Some(i)
      else None
  }

  /** `login`: validate, then `JWTAuth::attempt`.  `issue` stands for the
      token the library makes for a user, `None` when it throws. */
  function Login(db: Users, hasher: Crypto.Hasher, isEmail: string -> bool, issue: Account -> Option<string>, data: Input)
    : (r: LoginResponse)
    ensures r.LoggedIn? ==> exists i :: 0 <= i < |db.rows| && db.rows[i] == r.account
    ensures r.LoggedIn? ==> Filled(data, "email") && r.account.email == data["email"]
    ensures r.LoggedIn? ==> Filled(data, "password") && hasher.matches(data["password"], r.account.password)
    ensures r.LoggedIn? ==> issue(r.account) == Some(r.token)
    ensures r.LoginInvalid? <==> Failures(LoginRules, data, Context(isEmail, Emails(db))) != {}
    ensures Failures(LoginRules, data, Context(isEmail, Emails(db))) == {} ==>
      && Filled(data, "email") && Filled(data, "password")
      && var a := Authenticate(db, hasher, data["email"], data["password"]);
        && (r.BadCredentials? <==> a.None?)
        && (r.LoggedIn? <==> a.Some? && issue(db.rows[a.value]).Some?)
        && (r.TokenError? <==> a.Some? && issue(db.rows[a.value]).None?)
  {
    var errors := Failures(LoginRules, data, Context(isEmail, Emails(db)));
    if errors != {} then LoginInvalid(errors)
    else
      RequiredPresent(LoginRules, "email", data, Context(isEmail, Emails(db)));
      RequiredPresent(LoginRules, "password", data, Context(isEmail, Emails(db)));
      match Authenticate(db, hasher, data["email"], data["password"])
      case None => BadCredentials
      case Some(i) =>
        match issue(db.rows[i])
        case None => TokenError
        case Some(token) => LoggedIn(token, db.rows[i])
  }

  /** Whatever went wrong with the credentials, an unknown e-mail or a
      wrong password, the answer is the same 401. */
  lemma LoginFailuresIndistinguishable(db: Users, hasher: Crypto.Hasher, isEmail: string -> bool,
                                       issue: Account -> Option<string>, data: Input)
    requires Failures(LoginRules, data, Context(isEmail, Emails(db))) == {}
    requires Filled(data, "email") && Filled(data, "password")
    requires forall i :: 0 <= i < |db.rows| && db.rows[i].email == data["email"] ==>
      !hasher.matches(data["password"], db.rows[i].password)
    ensures Login(db, hasher, isEmail, issue, data) == BadCredentials
    ensures Login(db, hasher, isEmail, issue, data).Status() == 401
  {
  }

  /** A registered user logs in with the registered password, given a sound
      hasher and a library that issues a token. */
  lemma RegisterThenLogin(db: Users, hasher: Crypto.Hasher, isEmail: string -> bool, issue: Account -> Option<string>,
                          data: Input, salt: Crypto.Salt)
    requires Wf(db) && Crypto.Sound(hasher)
    requires Register(db, hasher, isEmail, data, salt).1.Registered?
    requires issue(Register(db, hasher, isEmail, data, salt).1.account).Some?
    ensures var (db', resp) := Register(db, hasher, isEmail, data, salt);
      Login(db', hasher, isEmail, issue, map["email" := data["email"], "password" := data["password"]])
        == LoggedIn(issue(resp.account).value, resp.account)
  {
    var (db', resp) := Register(db, hasher, isEmail, data, salt);
    var creds := map["email" := data["email"], "password" := data["password"]];
    RegisterAcceptsIff(db, hasher, isEmail, data, salt);
    FirstByEmail(db', |db.rows|);
    var ctx := Context(isEmail, Emails(db'));
    assert "email" !in Failures(LoginRules, creds, ctx) by {
      assert Lookup(creds, "email") == Lookup(data, "email");
    }
    assert "password" !in Failures(LoginRules, creds, ctx) by {
      assert Lookup(creds, "password") == Lookup(data, "password");
    }
    assert Failures(LoginRules, creds, ctx) == {};
  }

  // ----------------------------------------------------------- validateToken

  datatype TokenCheck =
    | TokenValid(userId: nat, userEmail: string, userName: string, userType: string)
    | TokenMissing
    | TokenUserUnknown
    | TokenRejected
  {
    function Status(): int { if TokenValid? then 200 else 401 }
  }

  /** `validateToken`: no bearer token, a token whose subject is no user,
      and a token the library rejects (`subjectOf` gives `None`) all answer
      `isValid: false`; otherwise the resolved user's fields. */
  function ValidateToken(db: Users, subjectOf: string -> Option<int>, authorization: Option<string>): (r: TokenCheck)
    ensures LaravelRequest.Falsy(LaravelRequest.BearerToken(authorization)) <==> r == TokenMissing
    ensures r.TokenValid? ==>
      && subjectOf(LaravelRequest.BearerToken(authorization).value) == Some(r.userId)
      && (exists i :: 0 <= i < |db.rows| && db.rows[i].id == r.userId && db.rows[i].email == r.userEmail
            && db.rows[i].name == r.userName && db.rows[i].userType == r.userType)
  {
    var token := LaravelRequest.BearerToken(authorization);
    if LaravelRequest.Falsy(token) then TokenMissing
    else
      match subjectOf(token.value)
      case None => TokenRejected
      case Some(id) =>
        match First(db.rows, ById(id))
        case None => TokenUserUnknown
        case Some(i) =>
          var a := db.rows[i];
          TokenValid(a.id, a.email, a.name, a.userType)
  }

  /** A presented token whose subject is a user of a well-formed table
      resolves to that user. */
  lemma ValidateTokenResolves(db: Users, subjectOf: string -> Option<int>, t: string, i: nat)
    requires Wf(db) && i < |db.rows|
    requires ' ' !in t && ',' !in t && t != "" && t != "0"
    requires subjectOf(t) == Some(db.rows[i].id)
    ensures ValidateToken(db, subjectOf, Some(Text.BearerScheme + t))
      == TokenValid(db.rows[i].id, db.rows[i].email, db.rows[i].name, db.rows[i].userType)
  {
    LaravelRequest.BearerTokenOfScheme(t);
    FirstById(db, i);
  }

  // ---------------------------------------------------------- password reset

  /** `Str::random(60)`. */
  const ResetTokenLength: nat := 60

  /** `now()->addHours(1)`, in seconds. */
  const ResetWindow: int := 3600

  /** The rule array of `forgotPassword`. */
  const ForgotRules: RuleSet := map["email" := [Required, EmailFormat, Exists]]

  datatype ForgotResponse = ForgotInvalid(errors: set<string>) | ResetLinkSent(resetToken: string)
  {
    function Status(): int { if ResetLinkSent? then 200 else 422 }
  }

  /** `forgotPassword`: for a known e-mail, stores a fresh reset token that
      expires one hour from `now` on the user's row. */
  function ForgotPassword(db: Users, isEmail: string -> bool, data: Input, random: string, now: int)
    : (r: (Users, ForgotResponse))
    requires |random| == ResetTokenLength
    ensures r.1.ForgotInvalid? ==> r.0 == db
    ensures r.1.ForgotInvalid? <==> !(Filled(data, "email") && isEmail(data["email"]) && data["email"] in Emails(db))
    ensures r.1.ResetLinkSent? ==> r.1.resetToken == random && |r.0.rows| == |db.rows| && r.0.nextId == db.nextId
    ensures r.1.ResetLinkSent? ==> exists i :: (0 <= i < |db.rows| && db.rows[i].email == data["email"]
      && r.0.rows == db.rows[i := db.rows[i].(resetToken := Some(random), resetTokenExpiresAt := Some(now + ResetWindow))])
    ensures Wf(db) ==> Wf(r.0)
  {
    var ctx := Context(isEmail, Emails(db));
    var errors := Failures(ForgotRules, data, ctx);
    ForgotRule(data, ctx);
    if errors != {} then (db, ForgotInvalid(errors))
    else
      var i := First(db.rows, ByEmail(data["email"])).value;
      var updated := db.rows[i].(resetToken := Some(random), resetTokenExpiresAt := Some(now + ResetWindow));
      assert Wf(db) ==> Wf(Users(db.rows[i := updated], db.nextId)) by {
        if Wf(db) { UpdateKeepsWf(db, i, updated); }
      }
      (Users(db.rows[i := updated], db.nextId), ResetLinkSent(random))
  }

  lemma ForgotRule(data: Input, ctx: Context)
    ensures Failures(ForgotRules, data, ctx) == {} <==>
      Filled(data, "email") && ctx.isEmail(data["email"]) && data["email"] in ctx.emails
  {
    var rules := ForgotRules["email"];
    var v := Lookup(data, "email");
    if !Filled(data, "email") {
      assert Runs(rules[0], v) && !Passes(rules[0], "email", v, data, ctx);
    } else if !ctx.isEmail(data["email"]) {
      assert Runs(rules[1], v) && !Passes(rules[1], "email", v, data, ctx);
    } else if data["email"] !in ctx.emails {
      assert Runs(rules[2], v) && !Passes(rules[2], "email", v, data, ctx);
    }
    assert Failures(ForgotRules, data, ctx) == {} <==> "email" !in Failures(ForgotRules, data, ctx);
  }

  /** The rule array of `resetPassword`. */
  const ResetRules: RuleSet := map[
    "token" := [Required, Str],
    "email" := [Required, EmailFormat],
    "password" := [Required, Str, Min(6), Confirmed]
  ]

  datatype ResetResponse = ResetInvalid(errors: set<string>) | ResetRefused | PasswordChanged
  {
    function Status(): int
    {
      match this
      case ResetInvalid(_) => 422
      case ResetRefused => 400
      case PasswordChanged => 200
    }
  }

  /** The row has this e-mail, this reset token and an expiry after `now`. */
  function Redeemable(email: string, token: string, now: int): Account -> bool
  {
    (a: Account) =>
      a.email == email && a.resetToken == Some(token)
      && a.resetTokenExpiresAt.Some? && a.resetTokenExpiresAt.value > now
  }

  /** `resetPassword`: the first row that can redeem the token gets the new
      password's digest and loses its reset token and expiry. */
  function ResetPassword(db: Users, hasher: Crypto.Hasher, isEmail: string -> bool, data: Input, salt: Crypto.Salt, now: int)
    : (r: (Users, ResetResponse))
    ensures !r.1.PasswordChanged? ==> r.0 == db
    ensures r.1.PasswordChanged? ==>
      && Filled(data, "email") && Filled(data, "token") && Filled(data, "password")
      && (exists i :: 0 <= i < |db.rows| && Redeemable(data["email"], data["token"], now)(db.rows[i])
            && r.0 == Users(db.rows[i := db.rows[i].(password := hasher.encode(data["password"], salt),
                                                      resetToken := None, resetTokenExpiresAt := None)], db.nextId))
    ensures r.1.ResetRefused? ==> Filled(data, "email") && Filled(data, "token")
    ensures r.1.ResetRefused? ==> forall i :: 0 <= i < |db.rows| ==> !Redeemable(data["email"], data["token"], now)(db.rows[i])
    ensures r.1.ResetInvalid? <==> Failures(ResetRules, data, Context(isEmail, Emails(db))) != {}
    ensures Failures(ResetRules, data, Context(isEmail, Emails(db))) == {} ==>
      (r.1.PasswordChanged? <==> exists i :: 0 <= i < |db.rows| && Redeemable(data["email"], data["token"], now)(db.rows[i]))
    ensures Wf(db) ==> Wf(r.0)
  {
    var ctx := Context(isEmail, Emails(db));
    var errors := Failures(ResetRules, data, ctx);
    if errors != {} then (db, ResetInvalid(errors))
    else
      RequiredPresent(ResetRules, "token", data, ctx);
      RequiredPresent(ResetRules, "email", data, ctx);
      RequiredPresent(ResetRules, "password", data, ctx);
      match First(db.rows, Redeemable(data["email"], data["token"], now))
      case None => (db, ResetRefused)
      case Some(i) =>
        var updated := db.rows[i].(password := hasher.encode(data["password"], salt),
                                   resetToken := None, resetTokenExpiresAt := None);
        assert Wf(db) ==> Wf(Users(db.rows[i := updated], db.nextId)) by {
          if Wf(db) { UpdateKeepsWf(db, i, updated); }
        }
        (Users(db.rows[i := updated], db.nextId), PasswordChanged)
  }

  /** The request `resetPassword` receives for an e-mail, a token and a
      confirmed new password. */
  function ResetRequest(email: string, token: string, password: string): Input
  {
    map["email" := email, "token" := token, "password" := password, "password_confirmation" := password]
  }

  /** A well-formed reset request passes validation. */
  lemma ResetRequestValid(email: string, token: string, password: string, ctx: Context)
    requires !Text.IsBlank(email) && ctx.isEmail(email) && !Text.IsBlank(token)
    requires !Text.IsBlank(password) && |password| >= 6
    ensures Failures(ResetRules, ResetRequest(email, token, password), ctx) == {}
  {
    var data := ResetRequest(email, token, password);
    assert Lookup(data, "password" + "_confirmation") == Some(password) by {
      assert "password" + "_confirmation" == "password_confirmation";
    }
    forall attr | attr in ResetRules ensures !AttributeFails(attr, ResetRules[attr], data, ctx) {
    }
  }

  /** Round trip: a reset token issued by `forgotPassword` and presented
      within the hour, with a valid new password, changes the password. */
  lemma ForgotThenReset(db: Users, hasher: Crypto.Hasher, isEmail: string -> bool, email: string, random: string,
                        issuedAt: int, password: string, salt: Crypto.Salt, now: int)
    requires Wf(db) && |random| == ResetTokenLength && !Text.IsBlank(random)
    requires !Text.IsBlank(password) && |password| >= 6
    requires ForgotPassword(db, isEmail, map["email" := email], random, issuedAt).1.ResetLinkSent?
    requires now < issuedAt + ResetWindow
    ensures var db1 := ForgotPassword(db, isEmail, map["email" := email], random, issuedAt).0;
      ResetPassword(db1, hasher, isEmail, ResetRequest(email, random, password), salt, now).1 == PasswordChanged
  {
    var db1 := ForgotPassword(db, isEmail, map["email" := email], random, issuedAt).0;
    var i :| 0 <= i < |db.rows| && db.rows[i].email == email
      && db1.rows == db.rows[i := db.rows[i].(resetToken := Some(random), resetTokenExpiresAt := Some(issuedAt + ResetWindow))];
    assert Redeemable(email, random, now)(db1.rows[i]);
    ResetRequestValid(email, random, password, Context(isEmail, Emails(db1)));
  }

  /** After the hour has passed the token no longer works, and nothing
      changes. */
  lemma ResetAfterExpiryRefused(db: Users, hasher: Crypto.Hasher, isEmail: string -> bool, email: string, random: string,
                                issuedAt: int, password: string, salt: Crypto.Salt, now: int)
    requires Wf(db) && |random| == ResetTokenLength
    requires ForgotPassword(db, isEmail, map["email" := email], random, issuedAt).1.ResetLinkSent?
    requires now >= issuedAt + ResetWindow
    ensures var db1 := ForgotPassword(db, isEmail, map["email" := email], random, issuedAt).0;
      var r := ResetPassword(db1, hasher, isEmail, ResetRequest(email, random, password), salt, now);
      !r.1.PasswordChanged? && r.0 == db1
  {
    var db1 := ForgotPassword(db, isEmail, map["email" := email], random, issuedAt).0;
    var i :| 0 <= i < |db.rows| && db.rows[i].email == email
      && db1.rows == db.rows[i := db.rows[i].(resetToken := Some(random), resetTokenExpiresAt := Some(issuedAt + ResetWindow))];
    var data := ResetRequest(email, random, password);
    assert data["email"] == email && data["token"] == random;
    assert db1.rows[i].resetTokenExpiresAt == Some(issuedAt + ResetWindow);
    forall j | 0 <= j < |db1.rows| ensures !Redeemable(email, random, now)(db1.rows[j]) {
      if j != i {
        assert db1.rows[j] == db.rows[j];
        assert db.rows[j].email != db.rows[i].email by {
          if j < i { } else { }
        }
      }
    }
  }

  /** A reset token works once: replaying the same successful request is
      refused and changes nothing. */
  lemma ResetTokenSingleUse(db: Users, hasher: Crypto.Hasher, isEmail: string -> bool, data: Input,
                            s1: Crypto.Salt, s2: Crypto.Salt, now: int, later: int)
    requires Wf(db)
    requires ResetPassword(db, hasher, isEmail, data, s1, now).1 == PasswordChanged
    ensures var db1 := ResetPassword(db, hasher, isEmail, data, s1, now).0;
      var r := ResetPassword(db1, hasher, isEmail, data, s2, later);
      !r.1.PasswordChanged? && r.0 == db1
  {
    var db1 := ResetPassword(db, hasher, isEmail, data, s1, now).0;
    var i :| 0 <= i < |db.rows| && Redeemable(data["email"], data["token"], now)(db.rows[i])
      && db1 == Users(db.rows[i := db.rows[i].(password := hasher.encode(data["password"], s1),
                                                resetToken := None, resetTokenExpiresAt := None)], db.nextId);
    forall j | 0 <= j < |db1.rows| ensures !Redeemable(data["email"], data["token"], later)(db1.rows[j]) {
      if j != i {
        assert db1.rows[j].email == db.rows[j].email != db.rows[i].email;
      }
    }
  }

  /** After a reset, the new password logs in. */
  lemma ResetThenLogin(db: Users, hasher: Crypto.Hasher, isEmail: string -> bool,
                       data: Input, salt: Crypto.Salt, now: int)
    requires Wf(db) && Crypto.Sound(hasher)
    requires ResetPassword(db, hasher, isEmail, data, salt, now).1 == PasswordChanged
    ensures var db1 := ResetPassword(db, hasher, isEmail, data, salt, now).0;
      Authenticate(db1, hasher, data["email"], data["password"]).Some?
  {
    var db1 := ResetPassword(db, hasher, isEmail, data, salt, now).0;
    var i :| 0 <= i < |db.rows| && Redeemable(data["email"], data["token"], now)(db.rows[i])
      && db1 == Users(db.rows[i := db.rows[i].(password := hasher.encode(data["password"], salt),
                                                resetToken := None, resetTokenExpiresAt := None)], db.nextId);
    FirstByEmail(db1, i);
  }
}

=== FILE: laravel_validation.dfy ===
/** The part of Laravel's validator the controller's rule arrays use.  A
    rule array maps an attribute to its list of rules; validation fails for
    an attribute when one of its rules runs and does not pass.  On an absent
    value (missing, or null) or a blank one, only implicit rules
    (`required`) run; every other rule is skipped. */
module LaravelValidation {
  import opened Wrappers
  import Text

  /** `$request->all()`: absent keys and null values are both missing. */
  type Input = map<string, string>

  datatype Rule =
    | Required
    | Str
    | Nullable
    | Max(n: nat)
    | Min(n: nat)
    | EmailFormat
    | Unique
    | Exists
    | Confirmed
    | In(options: seq<string>)
  {
    /** Implicit rules are checked even when the value is absent or blank. */
    predicate IsImplicit()
    {
      Required?
    }
  }

  /** An attribute's rules, as in `Validator::make($data, [...])`. */
  type RuleSet = map<string, seq<Rule>>

  /** What rules consult besides the input: the `email` format check (a
      library predicate) and the `email` column of the `users` table, which
      both `unique:users` and `exists:users,email` read. */
  datatype Context = Context(isEmail: string -> bool, emails: set<string>)

  function Lookup(data: Input, attr: string): (v: Option<string>)
  {
    if attr in data then Some(data[attr]) else None
  }

  /** The value is present and not blank: what `required` demands. */
  predicate Filled(data: Input, attr: string)
  {
    attr in data && !Text.IsBlank(data[attr])
  }

  /** Laravel runs non-implicit rules only on a present, non-blank value. */
  predicate Runs(rule: Rule, v: Option<string>)
  {
    rule.IsImplicit() || (v.Some? && !Text.IsBlank(v.value))
  }

  /** Whether `rule` accepts the value `v` of `attr`.  Every value the model
      carries is a string, so `string` passes. */
  predicate Passes(rule: Rule, attr: string, v: Option<string>, data: Input, ctx: Context)
  {
    match rule
    case Required => v.Some? && !Text.IsBlank(v.value)
    case Str => v.Some?
    case Nullable => true
    case Max(n) => v.Some? && |v.value| <= n
    case Min(n) => v.Some? && |v.value| >= n
    case EmailFormat => v.Some? && ctx.isEmail(v.value)
    case Unique => v.Some? && v.value !in ctx.emails
    case Exists => v.Some? && v.value in ctx.emails
    case Confirmed => v.Some? && Lookup(data, attr + "_confirmation") == v
    case In(options) => v.Some? && v.value in options
  }

  predicate AttributeFails(attr: string, rules: seq<Rule>, data: Input, ctx: Context)
  {
    var v := Lookup(data, attr);
    exists i :: 0 <= i < |rules| && Runs(rules[i], v) && !Passes(rules[i], attr, v, data, ctx)
  }

  /** Validation as the documentation states it: every rule that runs on
      its attribute's value accepts that value. */
  predicate AllRunningPass(rules: RuleSet, data: Input, ctx: Context)
  {
    forall attr, i :: attr in rules && 0 <= i < |rules[attr]| && Runs(rules[attr][i], Lookup(data, attr)) ==>
      Passes(rules[attr][i], attr, Lookup(data, attr), data, ctx)
  }

  /** The attributes `$validator->errors()` reports; validation fails when
      this set is not empty, which is exactly when some running rule
      rejects its value. */
  function Failures(rules: RuleSet, data: Input, ctx: Context): (r: set<string>)
    ensures r <= rules.Keys
    ensures r == {} <==> AllRunningPass(rules, data, ctx)
  {
    var r := set attr | attr in rules && AttributeFails(attr, rules[attr], data, ctx);
    assert r == {} ==> AllRunningPass(rules, data, ctx) by {
      if r == {} {
        forall attr, i | attr in rules && 0 <= i < |rules[attr]| && Runs(rules[attr][i], Lookup(data, attr))
          ensures Passes(rules[attr][i], attr, Lookup(data, attr), data, ctx)
        {
          assert attr !in r;
        }
      }
    }
    assert r != {} ==> !AllRunningPass(rules, data, ctx) by {
      if r != {} {
        var attr :| attr in r;
        var v := Lookup(data, attr);
        var i :| 0 <= i < |rules[attr]| && Runs(rules[attr][i], v) && !Passes(rules[attr][i], attr, v, data, ctx);
      }
    }
    r
  }

  /** An attribute whose first rule is `required` passes only when it is
      present. */
  lemma RequiredPresent(rules: RuleSet, attr: string, data: Input, ctx: Context)
    requires attr in rules && |rules[attr]| > 0 && rules[attr][0] == Required
    requires attr !in Failures(rules, data, ctx)
    ensures Filled(data, attr)
  {
    var v := Lookup(data, attr);
    assert Runs(rules[attr][0], v);
  }
}

/** `Request::bearerToken()` and PHP truthiness, as the controller and the
    middleware use them. */
module LaravelRequest {
  import opened Wrappers
  import Text

  /** `bearerToken()`: the text after the LAST "Bearer " in the
      Authorization header (an absent header reads as ""), cut at the first
      comma; `null` when there is no "Bearer " at all. */
  function BearerToken(authorization: Option<string>): (r: Option<string>)
    ensures r.Some? ==> ',' !in r.value
    ensures r.None? <==> authorization.None? || Text.Free(authorization.value, Text.BearerScheme)
  {
    var header := if authorization.Some? then authorization.value else "";
    match Text.LastIndexOf(header, Text.BearerScheme)
    case Missing => None
    case Found(pos) => Some(Text.BeforeComma(header[pos + |Text.BearerScheme|..]))
  }

  /** PHP's `!$token`: null, "" and "0" are all false. */
  predicate Falsy(token: Option<string>)
  {
    token.None? || token.value == "" || token.value == "0"
  }

  /** "Bearer " cannot overlap itself: an occurrence starts with 'B', and
      no later character of "Bearer " is a 'B'. */
  lemma OccurrenceStartsWithB(s: string, j: int)
    requires Text.OccursAt(s, Text.BearerScheme, j)
    ensures s[j] == 'B'
  {
    assert s[j..j + |Text.BearerScheme|][0] == s[j];
  }

  /** The header a client sends, "Bearer " followed by a token with no space
      and no comma, yields exactly that token. */
  lemma BearerTokenOfScheme(t: string)
    requires ' ' !in t && ',' !in t
    ensures BearerToken(Some(Text.BearerScheme + t)) == Some(t)
  {
    var header := Text.BearerScheme + t;
    assert Text.OccursAt(header, Text.BearerScheme, 0);
    forall j | 0 < j <= |header| ensures !Text.OccursAt(header, Text.BearerScheme, j) {
      if j + |Text.BearerScheme| <= |header| {
        if j < |Text.BearerScheme| {
          assert header[j] == Text.BearerScheme[j] != 'B';
          if Text.OccursAt(header, Text.BearerScheme, j) { OccurrenceStartsWithB(header, j); }
        } else {
          assert header[j..j + |Text.BearerScheme|][6] == t[j + 6 - |Text.BearerScheme|] != Text.BearerScheme[6];
        }
      }
    }
    var pos := Text.LastIndexOf(header, Text.BearerScheme).value;
    assert pos == 0;
    assert header[|Text.BearerScheme|..] == t;
    NoCommaKept(t);
  }

  /** A comma-free string is kept whole. */
  lemma NoCommaKept(s: string)
    requires ',' !in s
    ensures Text.BeforeComma(s) == s
  {
  }
}

=== FILE: spring_auth.dfy ===
/** The Spring back end's `AuthController`: `register`, `login` and
    `validateToken` over a user store keyed by e-mail.  Requests are
    handled one at a time; each operation is a function from the store to
    the new store and the response. */
module SpringAuthController {
  import opened Wrappers
  import Crypto
  import Jws
  import Text
  import opened UserEntity
  import JwtService

  /** The `UserRepository`: records keyed by e-mail, and the next value of
      the identity generator. */
  datatype Store = Store(users: map<string, User>, nextId: int)

  /** One record per e-mail (the key is the record's own e-mail), every
      saved record has an id below the generator, and ids are distinct. */
  ghost predicate Wf(st: Store)
  {
    && (forall e :: e in st.users ==> st.users[e].email == e)
    && (forall e :: e in st.users ==> st.users[e].id.Some? && st.users[e].id.value < st.nextId)
    && (forall e, e' :: e in st.users && e' in st.users && e != e' ==> st.users[e].id != st.users[e'].id)
  }

  /** JPA `persist` of a new entity: the generator assigns the id. */
  function Persist(st: Store, u: User): (r: Store)
    ensures u.email in r.users && r.users[u.email] == SetId(u, Some(st.nextId))
    ensures r.nextId > st.nextId
    ensures forall e :: e in st.users && e != u.email ==> e in r.users && r.users[e] == st.users[e]
    ensures r.users.Keys == st.users.Keys + {u.email}
  {
    Store(st.users[u.email := SetId(u, Some(st.nextId))], st.nextId + 1)
  }

  /** The controller's collaborators. */
  datatype Controller = Controller(hasher: Crypto.Hasher, jwt: JwtService.Service)

  datatype RegisterResponse = Registered | EmailAlreadyRegistered
  {
    function Status(): int { if Registered? then 200 else 400 }
  }

  datatype LoginResponse = LoggedIn(token: string) | InvalidCredentials
  {
    function Status(): int { if LoggedIn? then 200 else 401 }
  }

  /** The body of `/validate-token`: `isValid` with e-mail and name, or
      `isValid: false`. */
  datatype ValidationResponse = Valid(email: string, name: string) | Invalid
  {
    function Status(): int { if Valid? then 200 else 401 }
  }

  /** `register`: a duplicate e-mail is refused; otherwise the password is
      replaced by its digest and the user is saved as a new record.  The id
      a request body may carry is not kept (see `RegisterAsWritten`). */
  function Register(ctl: Controller, st: Store, u: User, salt: Crypto.Salt): (r: (Store, RegisterResponse))
    ensures u.email in st.users ==> r == (st, EmailAlreadyRegistered)
    ensures u.email !in st.users ==>
      && r.1 == Registered
      && r.0.users.Keys == st.users.Keys + {u.email}
      && r.0.users[u.email] == User(Some(st.nextId), u.name, u.email, ctl.hasher.encode(u.password, salt))
      && (forall e :: e in st.users ==> r.0.users[e] == st.users[e])
    ensures Wf(st) ==> Wf(r.0)
  {
    if u.email in st.users then (st, EmailAlreadyRegistered)
    else
      var hashed := SetPassword(SetId(u, None), ctl.hasher.encode(u.password, salt));
      (Persist(st, hashed), Registered)
  }

  /** Spring Data `save` as the source calls it: an entity whose id is set
      is merged onto the stored record with that id, if there is one;
      otherwise it is persisted with a generated id. */
  function SaveAsWritten(st: Store, u: User): (r: Store)
    ensures (u.id.None? || forall e :: e in st.users ==> st.users[e].id != u.id) ==> r == Persist(st, u)
    ensures u.id.Some? && (exists e :: e in st.users && st.users[e].id == u.id) ==>
      && u.email in r.users && r.users[u.email] == u
      && r.nextId == st.nextId
      && (forall e :: e in st.users && st.users[e].id == u.id && e != u.email ==> e !in r.users)
      && (forall e :: e in st.users && st.users[e].id != u.id && e != u.email ==> e in r.users && r.users[e] == st.users[e])
  {
    if u.id.Some? && exists e :: e in st.users && st.users[e].id == u.id then
      Store((map e | e in st.users && st.users[e].id != u.id :: st.users[e])[u.email := u], st.nextId)
    else Persist(st, u)
  }

  /** `register` as written: the request body's `id` reaches `save`. */
  function RegisterAsWritten(ctl: Controller, st: Store, u: User, salt: Crypto.Salt): (r: (Store, RegisterResponse))
    ensures u.email in st.users ==> r == (st, EmailAlreadyRegistered)
    ensures u.email !in st.users ==>
      && r.1 == Registered && u.email in r.0.users
      && r.0.users[u.email].name == u.name
      && r.0.users[u.email].password == ctl.hasher.encode(u.password, salt)
    ensures u.email !in st.users && u.id.Some? && (exists e :: e in st.users && st.users[e].id == u.id) ==>
      && r.0.users[u.email].id == u.id
      && (forall e :: e in st.users && st.users[e].id == u.id ==> e !in r.0.users)
  {
    if u.email in st.users then (st, EmailAlreadyRegistered)
    else (SaveAsWritten(st, SetPassword(u, ctl.hasher.encode(u.password, salt))), Registered)
  }

  /** A request body without an id, which is what the front ends send,
      registers exactly as the corrected `Register` does. */
  lemma RegisterAgreesWithoutId(ctl: Controller, st: Store, u: User, salt: Crypto.Salt)
    requires u.id.None?
    ensures RegisterAsWritten(ctl, st, u, salt) == Register(ctl, st, u, salt)
  {
  }

  /** A registration for a fresh e-mail whose body names the id of an
      existing user replaces that user's record: the victim's e-mail is
      gone from the store and the new e-mail owns the victim's id. */
  lemma RegisterOverwritesExistingRecord(ctl: Controller, salt: Crypto.Salt)
    ensures var victim := User(Some(0), "Vic", "v@x.com", "digest");
      var st := Store(map["v@x.com" := victim], 1);
      var (st', resp) := RegisterAsWritten(ctl, st, User(Some(0), "Mal", "m@x.com", "pw"), salt);
      && Wf(st)
      && resp == Registered
      && "v@x.com" !in st'.users
      && st'.users["m@x.com"].id == Some(0)
      && |st'.users| == |st.users|
  {
    var victim := User(Some(0), "Vic", "v@x.com", "digest");
    var st := Store(map["v@x.com" := victim], 1);
    var u := User(Some(0), "Mal", "m@x.com", "pw");
    var hashed := SetPassword(u, ctl.hasher.encode(u.password, salt));
    assert st.users["v@x.com"].id == hashed.id;
    assert SaveAsWritten(st, hashed).users == map["m@x.com" := hashed];
  }

  /** `login`: an unknown e-mail and a wrong password give the same
      response; otherwise the token for the stored record. */
  function Login(ctl: Controller, st: Store, email: string, password: string): (r: LoginResponse)
    ensures r.LoggedIn? <==> email in st.users && ctl.hasher.matches(password, st.users[email].password)
    ensures r.LoggedIn? ==> r.token == JwtService.GenerateToken(ctl.jwt, st.users[email])
  {
    if email !in st.users || !ctl.hasher.matches(password, st.users[email].password) then InvalidCredentials
    else LoggedIn(JwtService.GenerateToken(ctl.jwt, st.users[email]))
  }

  /** `validateToken`: every "Bearer " is deleted from the header, the rest
      is validated, and every failure, including a claim the response map
      cannot hold because it is null, becomes `isValid: false`. */
  function ValidateToken(ctl: Controller, header: string): (r: ValidationResponse)
    ensures var c := JwtService.ValidateToken(ctl.jwt, Text.RemoveAll(header, Text.BearerScheme));
      r.Valid? <==> c.Ok? && c.value.sub.Some? && c.value.name.Some?
    ensures var c := JwtService.ValidateToken(ctl.jwt, Text.RemoveAll(header, Text.BearerScheme));
      r.Valid? ==> c.Ok? && c.value.sub == Some(r.email) && c.value.name == Some(r.name)
  {
    var token := Text.RemoveAll(header, Text.BearerScheme);
    match JwtService.ValidateToken(ctl.jwt, token)
    case Ok(claims) =>
      if claims.sub.Some? && claims.name.Some? then Valid(claims.sub.value, claims.name.value) else Invalid
    case Err(_) => Invalid
  }

  /** Enumeration resistance: an unknown e-mail and a known e-mail with a
      wrong password produce the identical 401 response. */
  lemma LoginFailuresIndistinguishable(ctl: Controller, st: Store, unknown: string, known: string, p: string, q: string)
    requires unknown !in st.users
    requires known in st.users && !ctl.hasher.matches(q, st.users[known].password)
    ensures Login(ctl, st, unknown, p) == Login(ctl, st, known, q) == InvalidCredentials
    ensures Login(ctl, st, unknown, p).Status() == 401
  {
  }

  /** With a sound hasher, registering and then logging in with the same
      credentials succeeds, and the token validates to the registered
      e-mail and name. */
  lemma RegisterThenLogin(ctl: Controller, st: Store, u: User, salt: Crypto.Salt)
    requires Crypto.Sound(ctl.hasher) && Jws.Lawful(ctl.jwt.codec)
    requires u.email !in st.users
    ensures var st' := Register(ctl, st, u, salt).0;
      && Login(ctl, st', u.email, u.password).LoggedIn?
      && ValidateToken(ctl, Text.BearerScheme + Login(ctl, st', u.email, u.password).token) == Valid(u.email, u.name)
  {
    var st' := Register(ctl, st, u, salt).0;
    var token := JwtService.GenerateToken(ctl.jwt, st'.users[u.email]);
    assert Login(ctl, st', u.email, u.password) == LoggedIn(token);
    BearerHeaderAccepted(ctl, st'.users[u.email]);
  }

  /** With a discriminating hasher, a password that differs from the
      registered one within the bytes bcrypt reads is refused after
      registration. */
  lemma RegisterThenWrongPassword(ctl: Controller, st: Store, u: User, salt: Crypto.Salt, wrong: string)
    requires Crypto.Discriminating(ctl.hasher)
    requires u.email !in st.users && Crypto.IsPlain(u.password) && Crypto.IsPlain(wrong)
    requires Crypto.Significant(wrong) != Crypto.Significant(u.password)
    ensures Login(ctl, Register(ctl, st, u, salt).0, u.email, wrong) == InvalidCredentials
  {
  }

  /** The other side of bcrypt's 72-byte limit: after registering a password
      of 72 characters or more, any extension of it logs in as well. */
  lemma LongPasswordExtensionAccepted(ctl: Controller, st: Store, u: User, salt: Crypto.Salt, tail: string)
    requires Crypto.Truncating(ctl.hasher)
    requires u.email !in st.users && Crypto.IsPlain(u.password) && Crypto.IsPlain(tail)
    requires |u.password| >= Crypto.KeyBytes
    ensures Login(ctl, Register(ctl, st, u, salt).0, u.email, u.password + tail).LoggedIn?
  {
    Crypto.ExtensionIndistinct(u.password, tail);
    assert Crypto.IsPlain(u.password + tail);
  }

  /** Registering the same e-mail twice: the second call is refused and the
      store keeps exactly the one record of the first. */
  lemma RegisterTwice(ctl: Controller, st: Store, u: User, v: User, s1: Crypto.Salt, s2: Crypto.Salt)
    requires u.email !in st.users && v.email == u.email
    ensures var (st1, _) := Register(ctl, st, u, s1);
      && Register(ctl, st1, v, s2) == (st1, EmailAlreadyRegistered)
      && |st1.users| == |st.users| + 1
  {
  }

  /** A generated token is accepted with or without the "Bearer " scheme:
      the header parse is looser than section 2.1 of RFC 6750. */
  lemma BearerHeaderAccepted(ctl: Controller, u: User)
    requires Jws.Lawful(ctl.jwt.codec)
    ensures ValidateToken(ctl, Text.BearerScheme + JwtService.GenerateToken(ctl.jwt, u)) == Valid(u.email, u.name)
    ensures ValidateToken(ctl, JwtService.GenerateToken(ctl.jwt, u)) == Valid(u.email, u.name)
  {
    var t := JwtService.GenerateToken(ctl.jwt, u);
    Jws.SignedAlphabet(ctl.jwt.codec, ctl.jwt.secret, Jws.HS512, JwtService.Issued(u));
    CompactHasNoSpace(t);
    NoBearerWithoutSpace(t);
    Text.RemoveAllLeading(t, Text.BearerScheme);
  }

  /** No compact token contains a space. */
  lemma CompactHasNoSpace(t: string)
    requires forall i :: 0 <= i < |t| ==> Jws.IsBase64UrlChar(t[i]) || t[i] == '.'
    ensures ' ' !in t
  {
  }

  /** "Bearer " contains a space, so a space-free string holds no
      occurrence of it. */
  lemma NoBearerWithoutSpace(t: string)
    requires ' ' !in t
    ensures Text.Free(t, Text.BearerScheme)
  {
    forall i | 0 <= i <= |t| ensures !Text.OccursAt(t, Text.BearerScheme, i) {
      if i + |Text.BearerScheme| <= |t| {
        assert t[i..i + |Text.BearerScheme|][6] == t[i + 6] != Text.BearerScheme[6];
      }
    }
  }

  /** Inserting "Bearer " at any point of a space-free string, or in front
      of it twice, is undone by the header parse. */
  lemma StripInserted(t: string, k: nat)
    requires ' ' !in t && k <= |t|
    ensures Text.RemoveAll(t[..k] + Text.BearerScheme + t[k..], Text.BearerScheme) == Text.RemoveAll(t, Text.BearerScheme)
  {
    assert Text.BearerScheme[..6] == "Bearer";
    Text.InsertedAtRemoved(t, k, Text.BearerScheme);
    NoBearerWithoutSpace(t);
  }

  /** The response depends on the header only through what remains once
      every "Bearer " is deleted. */
  lemma SameStrippedSameResponse(ctl: Controller, h1: string, h2: string)
    requires Text.RemoveAll(h1, Text.BearerScheme) == Text.RemoveAll(h2, Text.BearerScheme)
    ensures ValidateToken(ctl, h1) == ValidateToken(ctl, h2)
  {
  }

  /** "Bearer " is deleted wherever it occurs, not only as a prefix: a
      generated token with the scheme inserted at any point is still
      accepted. */
  lemma BearerDeletedAnywhere(ctl: Controller, u: User, k: nat)
    requires Jws.Lawful(ctl.jwt.codec)
    requires k <= |JwtService.GenerateToken(ctl.jwt, u)|
    ensures var t := JwtService.GenerateToken(ctl.jwt, u);
      ValidateToken(ctl, t[..k] + Text.BearerScheme + t[k..]) == Valid(u.email, u.name)
  {
    var t := JwtService.GenerateToken(ctl.jwt, u);
    Jws.SignedAlphabet(ctl.jwt.codec, ctl.jwt.secret, Jws.HS512, JwtService.Issued(u));
    CompactHasNoSpace(t);
    StripInserted(t, k);
    SameStrippedSameResponse(ctl, t[..k] + Text.BearerScheme + t[k..], t);
    BearerHeaderAccepted(ctl, u);
  }

  /** A header with two spaces after the scheme is accepted: `replace`
      leaves one space in front of the token, and the library trims it off
      the header segment. */
  lemma ExtraSpaceAccepted(ctl: Controller, u: User)
    requires Jws.Lawful(ctl.jwt.codec)
    ensures ValidateToken(ctl, Text.BearerScheme + " " + JwtService.GenerateToken(ctl.jwt, u)) == Valid(u.email, u.name)
  {
    var t := JwtService.GenerateToken(ctl.jwt, u);
    Jws.SignedAlphabet(ctl.jwt.codec, ctl.jwt.secret, Jws.HS512, JwtService.Issued(u));
    CompactHasNoSpace(t);
    NoBearerAfterSpace(t);
    Text.RemoveAllLeading(" " + t, Text.BearerScheme);
    assert Text.BearerScheme + " " + t == Text.BearerScheme + (" " + t);
    JwtService.PaddedTokenAccepted(ctl.jwt, u, " ");
  }

  /** A space followed by a space-free string holds no "Bearer ": the only
      space is in front of where the scheme's "B" would have to be. */
  lemma NoBearerAfterSpace(t: string)
    requires ' ' !in t
    ensures Text.Free(" " + t, Text.BearerScheme)
  {
    var s := " " + t;
    forall i | 0 <= i <= |s| ensures !Text.OccursAt(s, Text.BearerScheme, i) {
      if i + |Text.BearerScheme| <= |s| {
        if i == 0 {
          assert s[i..i + |Text.BearerScheme|][0] == ' ' != Text.BearerScheme[0];
        } else {
          assert s[i..i + |Text.BearerScheme|][6] == t[i + 5] != Text.BearerScheme[6];
        }
      }
    }
  }

  /** A repeated scheme is accepted too. */
  lemma BearerRepeated(ctl: Controller, u: User)
    requires Jws.Lawful(ctl.jwt.codec)
    ensures ValidateToken(ctl, Text.BearerScheme + Text.BearerScheme + JwtService.GenerateToken(ctl.jwt, u)) == Valid(u.email, u.name)
  {
    var t := JwtService.GenerateToken(ctl.jwt, u);
    Text.RemoveAllLeading(Text.BearerScheme + t, Text.BearerScheme);
    assert Text.BearerScheme + Text.BearerScheme + t == Text.BearerScheme + (Text.BearerScheme + t);
    SameStrippedSameResponse(ctl, Text.BearerScheme + Text.BearerScheme + t, Text.BearerScheme + t);
    BearerHeaderAccepted(ctl, u);
  }

  /** A response `isValid: true` is only given for a token signed under the
      service's secret. */
  lemma ValidImpliesSigned(ctl: Controller, header: string)
    requires ValidateToken(ctl, header).Valid?
    ensures var segments := JwtService.Segments(Text.RemoveAll(header, Text.BearerScheme));
      && segments.Some?
      && var (h, p, s) := segments.value;
        && ctl.jwt.codec.decodeHeader(h).Some?
        && s == ctl.jwt.codec.mac(ctl.jwt.codec.decodeHeader(h).value, ctl.jwt.secret, Jws.SigningInput(h, p))
  {
  }

  /** A scenario: Ana registers, logs in, has her
      token validated, is refused with a wrong password, and cannot register
      the same e-mail again. */
  lemma AnaScenario(ctl: Controller, st: Store, salt: Crypto.Salt, salt2: Crypto.Salt)
    requires Crypto.Sound(ctl.hasher) && Crypto.Discriminating(ctl.hasher) && Jws.Lawful(ctl.jwt.codec)
    requires "a@x.com" !in st.users
    ensures var ana := User(None, "Ana", "a@x.com", "secret123");
      var (st1, resp) := Register(ctl, st, ana, salt);
      && resp == Registered
      && Login(ctl, st1, "a@x.com", "secret123").LoggedIn?
      && ValidateToken(ctl, Text.BearerScheme + Login(ctl, st1, "a@x.com", "secret123").token) == Valid("a@x.com", "Ana")
      && Login(ctl, st1, "a@x.com", "wrong") == InvalidCredentials
      && Register(ctl, st1, ana, salt2) == (st1, EmailAlreadyRegistered)
  {
    var ana := User(None, "Ana", "a@x.com", "secret123");
    RegisterThenLogin(ctl, st, ana, salt);
    AnaRefusedWithWrongPassword(ctl, st, ana, salt);
  }

  /** The wrong-password step of the scenario. */
  lemma AnaRefusedWithWrongPassword(ctl: Controller, st: Store, ana: User, salt: Crypto.Salt)
    requires Crypto.Discriminating(ctl.hasher)
    requires ana.email !in st.users && ana.password == "secret123"
    ensures Login(ctl, Register(ctl, st, ana, salt).0, ana.email, "wrong") == InvalidCredentials
  {
    assert Crypto.IsPlain("wrong") && Crypto.IsPlain("secret123");
    Crypto.ShortPasswordsDistinct("wrong", "secret123");
    RegisterThenWrongPassword(ctl, st, ana, salt, "wrong");
  }

  /** A request to the controller. */
  datatype Request =
    | RegisterRequest(user: User, salt: Crypto.Salt)
    | LoginRequest(email: string, password: string)
    | ValidateTokenRequest(header: string)

  datatype Response =
    | RegisterReply(register: RegisterResponse)
    | LoginReply(login: LoginResponse)
    | ValidateTokenReply(validation: ValidationResponse)

  /** Routes one request; only `register` can change the store, and every
      operation keeps the store well formed. */
  function Handle(ctl: Controller, st: Store, req: Request): (r: (Store, Response))
    ensures !req.RegisterRequest? ==> r.0 == st
    ensures Wf(st) ==> Wf(r.0)
    ensures req.LoginRequest? ==> r.1.LoginReply?
  {
    match req
    case RegisterRequest(u, salt) =>
      var (st', resp) := Register(ctl, st, u, salt);
      (st', RegisterReply(resp))
    case LoginRequest(email, password) => (st, LoginReply(Login(ctl, st, email, password)))
    case ValidateTokenRequest(header) => (st, ValidateTokenReply(ValidateToken(ctl, header)))
  }
}

=== FILE: text.dfy ===
/** String primitives of the two runtimes that the authentication code leans
    on: Java's `String.replace` and whitespace trimming, PHP's `strrpos`,
    `strstr` and `trim`. */
module Text {

  /** A search result: an index, or PHP's `false`. */
  datatype Position = Missing | Found(value: nat)

  /** `pat` occurs in `s` starting at index `i`. */
  predicate OccursAt(s: string, pat: string, i: int)
  {
    0 <= i && i + |pat| <= |s| && s[i..i + |pat|] == pat
  }

  /** `pat` occurs nowhere in `s`. */
  predicate Free(s: string, pat: string)
  {
    forall i :: 0 <= i <= |s| ==> !OccursAt(s, pat, i)
  }

  /** Dropping the first character cannot create an occurrence. */
  lemma FreeTail(s: string, pat: string)
    requires |s| > 0 && Free(s, pat)
    ensures Free(s[1..], pat)
  {
    forall i | 0 <= i <= |s[1..]| ensures !OccursAt(s[1..], pat, i) {
      if OccursAt(s[1..], pat, i) {
        assert s[1..][i..i + |pat|] == s[i + 1..i + 1 + |pat|];
        assert OccursAt(s, pat, i + 1);
      }
    }
  }

  /** The authentication scheme both back ends look for in the
      Authorization header (section 2.1 of RFC 6750), trailing space
      included. */
  const BearerScheme: string := "Bearer "

  /** Java `s.replace(pat, "")`: scans left to right and deletes every
      non-overlapping occurrence of `pat`, wherever it is. */
  function RemoveAll(s: string, pat: string): (r: string)
    requires |pat| > 0
    ensures |r| <= |s|
    ensures Free(s, pat) ==> r == s
    decreases |s|
  {
    if |s| == 0 then ""
    else if pat <= s then
      assert OccursAt(s, pat, 0);
      RemoveAll(s[|pat|..], pat)
    else
      assert Free(s, pat) ==> Free(s[1..], pat) by {
        if Free(s, pat) { FreeTail(s, pat); }
      }
      [s[0]] + RemoveAll(s[1..], pat)
  }

  /** Deleting a leading occurrence first changes nothing: `pat + s` and `s`
      reduce to the same string. */
  lemma {:induction false} RemoveAllLeading(s: string, pat: string)
    requires |pat| > 0
    ensures RemoveAll(pat + s, pat) == RemoveAll(s, pat)
  {
    assert pat <= pat + s;
    assert (pat + s)[|pat|..] == s;
  }

  /** Where `pat` does not start the string, `RemoveAll` keeps the first
      character and goes on with the rest. */
  lemma RemoveAllStep(s: string, pat: string)
    requires |pat| > 0 && |s| > 0 && !OccursAt(s, pat, 0)
    ensures RemoveAll(s, pat) == [s[0]] + RemoveAll(s[1..], pat)
  {
  }

  /** The side condition of `RemoveAllInside` carries over from `a` to its
      tail. */
  lemma NoEarlyOccurrenceTail(a: string, pat: string)
    requires |a| > 0
    requires forall i :: 0 <= i < |a| ==> !OccursAt(a + pat, pat, i)
    ensures forall i :: 0 <= i < |a[1..]| ==> !OccursAt(a[1..] + pat, pat, i)
  {
    forall i | 0 <= i < |a[1..]| ensures !OccursAt(a[1..] + pat, pat, i) {
      assert (a[1..] + pat)[i..i + |pat|] == (a + pat)[i + 1..i + 1 + |pat|];
      assert !OccursAt(a + pat, pat, i + 1);
    }
  }

  /** Appending to a string does not change whether `pat` starts it, once
      the string is at least as long as `pat`. */
  lemma NotAtStart(x: string, y: string, pat: string)
    requires |x| >= |pat| && !OccursAt(x, pat, 0)
    ensures !OccursAt(x + y, pat, 0)
  {
    assert (x + y)[0..|pat|] == x[0..|pat|];
  }

  /** Dropping the first character of a concatenation drops it from the
      left operand. */
  lemma TailOfConcat(x: string, y: string)
    requires |x| > 0
    ensures (x + y)[1..] == x[1..] + y
  {
  }

  /** Prepending a character associates with concatenation. */
  lemma ConsAssoc(c: char, x: string, y: string)
    ensures [c] + (x + y) == ([c] + x) + y
  {
  }

  /** Occurrences are deleted anywhere, not only at the front: when no
      occurrence starts inside `a`, the prefix `a` is kept and the occurrence
      after it disappears. */
  lemma {:induction false} RemoveAllInside(a: string, b: string, pat: string)
    requires |pat| > 0
    requires forall i :: 0 <= i < |a| ==> !OccursAt(a + pat, pat, i)
    ensures RemoveAll(a + pat + b, pat) == a + RemoveAll(b, pat)
    decreases |a|
  {
    if |a| == 0 {
      assert a + pat + b == pat + b;
      RemoveAllLeading(b, pat);
    } else {
      NotAtStart(a + pat, b, pat);
      NoEarlyOccurrenceTail(a, pat);
      RemoveAllInside(a[1..], b, pat);
      RemoveAllInsideStep(a, b, pat);
    }
  }

  /** The step of `RemoveAllInside`: a first character that does not start
      an occurrence is kept in front of the rest's result. */
  lemma RemoveAllInsideStep(a: string, b: string, pat: string)
    requires |pat| > 0 && |a| > 0
    requires !OccursAt(a + pat + b, pat, 0)
    requires RemoveAll(a[1..] + pat + b, pat) == a[1..] + RemoveAll(b, pat)
    ensures RemoveAll(a + pat + b, pat) == a + RemoveAll(b, pat)
  {
    var s, a', r := a + pat + b, a[1..], RemoveAll(b, pat);
    RemoveAllStep(s, pat);
    TailOfConcat(a, pat);
    TailOfConcat(a + pat, b);
    ConsAssoc(s[0], a', r);
    assert [s[0]] + a' == a;
  }

  /** An occurrence inserted between an occurrence-free prefix and an
      occurrence-free rest is all that is removed. */
  lemma InsertedRemoved(a: string, b: string, pat: string)
    requires |pat| > 0 && Free(b, pat)
    requires forall i :: 0 <= i < |a| ==> !OccursAt(a + pat, pat, i)
    ensures RemoveAll(a + pat + b, pat) == a + b
  {
    RemoveAllInside(a, b, pat);
  }

  /** A string without the last character of `pat` (which occurs nowhere
      earlier in `pat`) gets back to itself once `pat`, inserted at any
      position, is removed. */
  lemma InsertedAtRemoved(t: string, k: nat, pat: string)
    requires |pat| > 0 && k <= |t|
    requires pat[|pat| - 1] !in t && pat[|pat| - 1] !in pat[..|pat| - 1]
    ensures RemoveAll(t[..k] + pat + t[k..], pat) == t
  {
    var a, b := t[..k], t[k..];
    LacksInParts(t, k, pat[|pat| - 1]);
    NoEarlyOccurrence(a, pat);
    LacksLastFree(b, pat);
    InsertedRemoved(a, b, pat);
    assert a + b == t;
  }

  /** A character missing from a string is missing from both its parts. */
  lemma LacksInParts(t: string, k: nat, c: char)
    requires k <= |t| && c !in t
    ensures c !in t[..k] && c !in t[k..]
  {
    assert forall i :: 0 <= i < k ==> t[..k][i] == t[i];
    assert forall i :: 0 <= i < |t| - k ==> t[k..][i] == t[k + i];
  }

  /** A string without the last character of `pat` holds no occurrence of
      `pat`. */
  lemma LacksLastFree(b: string, pat: string)
    requires |pat| > 0 && pat[|pat| - 1] !in b
    ensures Free(b, pat)
  {
    forall i | 0 <= i <= |b| ensures !OccursAt(b, pat, i) {
      if i + |pat| <= |b| {
        assert b[i..i + |pat|][|pat| - 1] == b[i + |pat| - 1];
      }
    }
  }

  /** When the last character of `pat` occurs neither in `a` nor earlier in
      `pat`, no occurrence in `a + pat` starts inside `a`. */
  lemma NoEarlyOccurrence(a: string, pat: string)
    requires |pat| > 0
    requires pat[|pat| - 1] !in a && pat[|pat| - 1] !in pat[..|pat| - 1]
    ensures forall i :: 0 <= i < |a| ==> !OccursAt(a + pat, pat, i)
  {
    forall i | 0 <= i < |a| ensures !OccursAt(a + pat, pat, i) {
      var k := i + |pat| - 1;
      assert (a + pat)[i..i + |pat|][|pat| - 1] == (a + pat)[k];
      if k < |a| {
        assert (a + pat)[k] == a[k];
      } else {
        assert (a + pat)[k] == pat[..|pat| - 1][k - |a|];
      }
    }
  }

  /** The largest `i <= from` at which `pat` occurs in `s`. */
  function LastAtOrBelow(s: string, pat: string, from: nat): (r: Position)
    ensures r.Found? ==> r.value <= from && OccursAt(s, pat, r.value)
    ensures r.Found? ==> forall j :: r.value < j <= from ==> !OccursAt(s, pat, j)
    ensures r.Missing? ==> forall j :: 0 <= j <= from ==> !OccursAt(s, pat, j)
    decreases from
  {
    if OccursAt(s, pat, from) then Found(from)
    else if from == 0 then Missing
    else LastAtOrBelow(s, pat, from - 1)
  }

  /** PHP `strrpos(s, pat)`: the index of the last occurrence, or `false`. */
  function LastIndexOf(s: string, pat: string): (r: Position)
    ensures r.Found? ==> OccursAt(s, pat, r.value)
    ensures r.Found? ==> forall j :: r.value < j ==> !OccursAt(s, pat, j)
    ensures r.Missing? <==> Free(s, pat)
  {
    LastAtOrBelow(s, pat, |s|)
  }

  /** PHP `str_contains(s, ',') ? strstr(s, ',', true) : s`: everything
      before the first comma. */
  function BeforeComma(s: string): (r: string)
    ensures ',' !in r
    ensures r <= s
    ensures |r| < |s| ==> s[|r|] == ','
  {
    if |s| == 0 || s[0] == ',' then "" else [s[0]] + BeforeComma(s[1..])
  }

  /** Java's `Character.isWhitespace`: the ASCII controls tab to carriage
      return and file to unit separator, and the Unicode space, line and
      paragraph separators except the non-breaking ones. */
  predicate IsJavaWhitespace(c: char)
  {
    var n := c as int;
    || (0x09 <= n <= 0x0D) || (0x1C <= n <= 0x20) || n == 0x1680
    || (0x2000 <= n <= 0x200A && n != 0x2007)
    || n == 0x2028 || n == 0x2029 || n == 0x205F || n == 0x3000
  }

  /** `s` without its leading whitespace. */
  function TrimStart(s: string): (r: string)
    ensures |r| <= |s| && r == s[|s| - |r|..]
    ensures forall i :: 0 <= i < |s| - |r| ==> IsJavaWhitespace(s[i])
    ensures |r| > 0 ==> !IsJavaWhitespace(r[0])
  {
    if |s| > 0 && IsJavaWhitespace(s[0]) then TrimStart(s[1..]) else s
  }

  /** `s` without its trailing whitespace. */
  function TrimEnd(s: string): (r: string)
    ensures |r| <= |s| && r == s[..|r|]
    ensures forall i :: |r| <= i < |s| ==> IsJavaWhitespace(s[i])
    ensures |r| > 0 ==> !IsJavaWhitespace(r[|r| - 1])
  {
    if |s| > 0 && IsJavaWhitespace(s[|s| - 1]) then TrimEnd(s[..|s| - 1]) else s
  }

  /** `Strings.trimWhitespace`, which `Strings.clean` of the Java JWT
      library applies: surrounding whitespace removed.  The result is a
      slice of `s` with only whitespace around it, and it neither starts
      nor ends with whitespace. */
  function Strip(s: string): (r: string)
    ensures |r| > 0 ==> !IsJavaWhitespace(r[0]) && !IsJavaWhitespace(r[|r| - 1])
    ensures exists i :: PaddedAt(s, r, i)
  {
    var a := TrimStart(s);
    var r := TrimEnd(a);
    var i := |s| - |a|;
    assert PaddedAt(s, r, i);
    r
  }

  /** `s` is `r` at position `i` with only whitespace around it. */
  predicate PaddedAt(s: string, r: string, i: int)
  {
    && 0 <= i <= |s| - |r| && r == s[i..i + |r|]
    && (forall k :: 0 <= k < i ==> IsJavaWhitespace(s[k]))
    && (forall k :: i + |r| <= k < |s| ==> IsJavaWhitespace(s[k]))
  }

  /** A string that neither starts nor ends with whitespace is kept. */
  lemma StripKeeps(s: string)
    requires |s| == 0 || (!IsJavaWhitespace(s[0]) && !IsJavaWhitespace(s[|s| - 1]))
    ensures Strip(s) == s
  {
  }

  /** Leading whitespace makes no difference to `Strip`. */
  lemma StripPadded(pad: string, s: string)
    requires forall i :: 0 <= i < |pad| ==> IsJavaWhitespace(pad[i])
    ensures Strip(pad + s) == Strip(s)
  {
    TrimStartPadded(pad, s);
  }

  lemma {:induction false} TrimStartPadded(pad: string, s: string)
    requires forall i :: 0 <= i < |pad| ==> IsJavaWhitespace(pad[i])
    ensures TrimStart(pad + s) == TrimStart(s)
  {
    if |pad| > 0 {
      assert (pad + s)[0] == pad[0];
      assert (pad + s)[1..] == pad[1..] + s;
      TrimStartPadded(pad[1..], s);
    } else {
      assert pad + s == s;
    }
  }

  /** The characters PHP's `trim` strips by default. */
  predicate IsTrimmed(c: char)
  {
    c == ' ' || c == '\t' || c == '\n' || c == '\r' || c == '\0' || c == '\U{000B}'
  }

  /** PHP `trim(s) === ''`. */
  predicate IsBlank(s: string)
  {
    forall i :: 0 <= i < |s| ==> IsTrimmed(s[i])
  }
}

=== FILE: user.dfy ===
/** The Spring back end's `User` entity: a generated identity, a display
    name, the e-mail address that keys the store and the password field,
    which holds whatever was last set (the controller sets the bcrypt
    digest before saving). */
module UserEntity {
  import opened Wrappers

  /** `id` is the `@Id @GeneratedValue` identity: `None` until the store
      assigns one on save. */
  datatype User = User(id: Option<int>, name: string, email: string, password: string)

  /** `setId`: changes the identity and nothing else. */
  function SetId(u: User, id: Option<int>): (r: User)
    ensures r.id == id
    ensures r.name == u.name && r.email == u.email && r.password == u.password
  {
    u.(id := id)
  }

  /** `setName`: changes the display name and nothing else. */
  function SetName(u: User, name: string): (r: User)
    ensures r.name == name
    ensures r.id == u.id && r.email == u.email && r.password == u.password
  {
    u.(name := name)
  }

  /** `setEmail`: changes the e-mail address and nothing else. */
  function SetEmail(u: User, email: string): (r: User)
    ensures r.email == email
    ensures r.id == u.id && r.name == u.name && r.password == u.password
  {
    u.(email := email)
  }

  /** `setPassword`: changes the password field and nothing else. */
  function SetPassword(u: User, password: string): (r: User)
    ensures r.password == password
    ensures r.id == u.id && r.name == u.name && r.email == u.email
  {
    u.(password := password)
  }

  /** A setter whose value is what the field already holds is a no-op, and
      a second call to the same setter overrides the first. */
  lemma SettersIdempotent(u: User, a: string, b: string)
    ensures SetEmail(u, u.email) == u && SetEmail(SetEmail(u, a), b) == SetEmail(u, b)
    ensures SetName(u, u.name) == u && SetName(SetName(u, a), b) == SetName(u, b)
    ensures SetPassword(u, u.password) == u && SetPassword(SetPassword(u, a), b) == SetPassword(u, b)
  {
  }
}

=== FILE: wrappers.dfy ===
/** Failure-carrying values used across the model in place of the source's
    nulls and exceptions. */
module Wrappers {

  /** A value that may be absent: Java's `Optional`/`null`, PHP's `null`. */
  datatype Option<+T> = None | Some(value: T)

  /** The outcome of an operation that can fail with an error of type `E`. */
  datatype Result<+T, +E> = Ok(value: T) | Err(error: E)
}
